=== FILE: README.md ===
# Ensemble generator for ACCESS-OM2 experiments — a Dafny model

`ensemble.py` builds an ensemble of ocean–sea-ice experiments from a template
experiment. Every value listed for every namelist entry in `ensemble.yaml` gives
one variant. For each variant it goes through these steps:

- derive the variant's directory and branch name;
- skip it if the directory already exists, or if the template already holds the
  value;
- otherwise clone the template, patch the namelist, and discard the clone if
  git sees no change;
- rewrite the `SYNCDIR=` line of `sync_data.sh`, and discard the clone if that
  destination already exists;
- unless it starts from rest, set the member up and infer its archive from the
  work directory. Discard it if the archive already holds output or restarts;
  otherwise link the archive and the template's restart state;
- rewrite the `jobname:` line of `config.yaml`, amend `metadata.yaml`, and
  commit.

The paths found or committed form the ensemble list. For each member on that
list, the program counts the runs already archived and asks `payu` for the
missing ones. In test mode that command is commented out.

The model lifts the pure logic out of that script. Git, `payu`, the namelist
reader and the filesystem become inputs: an `Observation` per attempt, the set
of paths that exist before the run, and a `realpath` function. What an attempt
does to the filesystem and to git is recorded as a trace of `Effect`s.

Files, one module each:

| file | module | contents |
|---|---|---|
| `text.dfy` | `Text` | prefix and suffix tests, `split` and `join`, `replace`, `strip` (with Python's set of whitespace characters), `lower` on ASCII letters, `str(int)`, `zfill` |
| `paths.dfy` | `Paths` | `posixpath.join`, `basename` and `dirname` as string functions |
| `lines.dfy` | `Lines` | the line-prefixed rewrite of a file, the `SYNCDIR=` and `jobname:` rewrites |
| `naming.dfy` | `Naming` | the start-from token, variant names, the turning-angle axis, the archive path inferred from the work path, restart and ice-namelist paths |
| `metadata.dfy` | `Metadata` | the amendment of the description and keywords of `metadata.yaml` |
| `variant.dfy` | `Variant` | the decision for one attempt: outcome, effect trace, committed member |
| `ensemble.dfy` | `Ensemble` | the order of the attempts and the loop that folds the decision over them |
| `runs.dfy` | `Runs` | counting archived runs, the runs asked for, the whole program |

Some behaviour of the code is easy to miss on a first reading. The model
follows the code in each of these cases:

- **The `syncdir` variable carries over.** It is a local of `ensemble()` and
  outlives each loop iteration. A `sync_data.sh` without a `SYNCDIR=` line
  therefore reuses the destination of an earlier variant. If no earlier
  variant bound it, the first clone that is still changed after patching
  raises `NameError`, which ends the program before any run is dispatched and
  leaves that clone in place. An unchanged clone is removed before this point.
  Every clone is taken from the template's `HEAD`, so within one run all
  attempts see the same `sync_data.sh`: either every changed clone binds its
  own destination, or the first changed one raises. The model is more general
  and lets each attempt see its own script. It carries
  `syncDir: Option<string>` through the loop and has a `SyncDirUnbound` outcome
  that stops it.
- **The sync destination is checked after the clone exists.** A destination
  that names the variant's own directory, whether written absolute or relative
  to the working directory, therefore collides with the clone just made, and
  the clone is discarded.
- **Two attempts can derive the same directory name.** The later one finds the
  directory the earlier one committed, so it counts as already existing. That
  directory then appears twice on the ensemble list.
- **Running the generator again is not always a no-op.** It finds every member
  when every attempt of the first run found or committed its member.
  Variants that were identical to the template or discarded are decided afresh.
- **The restart link target is resolved.** The restart directory a member is
  linked to is the template's restart directory with symbolic links resolved.
  The description names the resolved path as well.

## Model

| member | source | states |
|---|---|---|
| Text.StripIdempotent | ensemble.py:58 | `strip()` applied twice gives the same as once |
| Text.ZFillProperties | ensemble.py:58 | `zfill` reaches the width, keeps longer text unchanged, keeps unsigned text as a suffix, and keeps a digit string's value |
| Text.ReplaceChangesIffContains | ensemble.py:151 | for a replacement whose length differs from the pattern's, `replace` changes the text exactly when the pattern occurs in it |
| Paths.BasenameOfJoin | ensemble.py:65-67 | the final component of `join(a, b)` is the final component of `b`, so the directory name does not depend on the working directory |
| Paths.DirnameOfJoin | ensemble.py:117-118 | joining a component onto a `dirname` keeps that parent under `dirname` and has the component as its `basename` |
| Lines.RewriteLines | ensemble.py:113-121 | one output line per input line; a line with the prefix becomes the builder's line, every other line is copied verbatim |
| Lines.RewriteIdempotent | ensemble.py:113-121 | when replacement lines keep the prefix and rebuilding them is a no-op, rewriting the rewritten file changes nothing |
| Lines.LastMatch | ensemble.py:115-119 | finds the last line with the prefix: there is none exactly when no line has it, and no later line has it |
| Lines.SyncDirIsLastWritten | ensemble.py:116-123 | the script's own destination exists exactly when some line starts with `SYNCDIR=`; it is what the last such line of the rewritten script says, it ends in the variant's name, and it keeps the old parent directory |
| Lines.SyncRewriteIdempotent | ensemble.py:113-122 | rewriting an already rewritten `sync_data.sh` changes nothing |
| Lines.ConfigRewrite | ensemble.py:173-180 | every `jobname:` line, and only those, becomes `jobname: <name>_<value>`, the line count is kept, and rewriting twice equals rewriting once |
| Naming.NormaliseStartFrom | ensemble.py:58 | the token is at least three characters long, has no upper-case letter and has no whitespace at either end |
| Naming.StartFromRest | ensemble.py:58 | the token is `rest` exactly when the stripped, lower-cased text is `rest`, as padding never makes another text equal to it |
| Naming.StartFromIdempotent | ensemble.py:58 | normalising a normalised token gives it back |
| Naming.StartFromCycle | ensemble.py:58 | an integer cycle below 1000 becomes exactly three digits with the same value; a larger one is its decimal text; neither is `rest` |
| Naming.ExpNameShape | ensemble.py:65-67 | the member's directory name is `<template basename>_<name>_<value>`, does not depend on the working directory, is non-empty and has no `/` |
| Naming.IsTurningAngle | ensemble.py:63 | the compound axis is recognised exactly when file, group and name all match `ice/cice_in.nml`, `dynamics_nml`, `turning_angle` |
| Naming.ArchivePathInference | ensemble.py:151 | the archive path is the work path split at every `/work/` and rejoined with `/archive/`; it equals the work path exactly when no `/work/` occurs |
| Naming.PatchedKeys | ensemble.py:99-104 | the turning angle, and only it, patches two entries, `cosw` then `sinw`, and never the entry it is listed under; any other axis patches its own name and nothing else |
| Naming.RestartSourceShape | ensemble.py:160-161 | for a template directory without a trailing slash, the restart state linked is `<template>/archive/restart<startfrom>` before links are resolved |
| Naming.IceNamelistSourceShape | ensemble.py:165-167 | for a template directory without a trailing slash and a token not ending in one, the ice namelist copied is `<template>/archive/output<startfrom>/ice/cice_in.nml` |
| Metadata.Amend | ensemble.py:184-201 | the description keeps the original as a prefix; notes are written back as text, unchanged, or `None` for a null; keywords are the old list followed by `perturbation`, the name, then `cosw`, `sinw` for the turning angle |
| Metadata.DescriptionLines | ensemble.py:184-196 | the amended description is the original's lines followed by exactly four lines: the note, the control run, the start state and the changed parameter |
| Metadata.DescriptionRecordsStart | ensemble.py:187-190 | the start-state line says "condition of rest" exactly when the member starts from rest, and otherwise names the restart path |
| Variant.DecisionOrder | ensemble.py:69-156 | existence is checked first, then the template comparison, before any clone; an unchanged clone is discarded; a dirty clone stops the run exactly when no sync destination was ever bound, is discarded exactly when the destination, taken from the working directory, already existed or is the clone itself, is discarded for its archive exactly when it does not start from rest and its archive holds output or restarts, and is committed exactly when it passes all of these |
| Variant.OwnDirectoryConflicts | ensemble.py:91-126 | a sync destination naming the attempt's own directory, absolute or relative to the working directory, discards the clone just made |
| Variant.EffectsMatchOutcome | ensemble.py:106-210 | a directory is removed exactly when the attempt is discarded, a commit happens exactly when it is committed, the setup tool runs only when not starting from rest, and a created directory is left behind only by a commit or the aborted run |
| Variant.CommittedMember | ensemble.py:95-210 | a committed member is the clone at the attempt's path, on a branch and commit message named after its directory; its sync destination, taken from the working directory, did not exist and is not the clone itself, and comes from its own script or else from an earlier attempt; its script, job name and metadata are rewritten; unless it starts from rest it is linked to its archive and to the resolved restart directory |
| Variant.CommittedNaming | ensemble.py:65-119 | with slash-free names a committed member's branch is `<template basename>_<name>_<value>`, and a destination named by its script ends in that name and is what its last `SYNCDIR=` line says |
| Ensemble.AttemptsAreTheValues | ensemble.py:60-64 | every attempt is for a value listed under its file, group and entry, and every listed value has an attempt |
| Ensemble.AttemptsCount | ensemble.py:60-64 | there is one attempt per listed value, so a value listed twice under an entry is tried twice |
| Ensemble.DocumentOrder | ensemble.py:60-64 | the attempts of a namelist file come after those of the files before it and before those of the files after it |
| Ensemble.GroupOrder | ensemble.py:62-64 | within a file, the attempts of a group come after those of the groups before it and before those of the groups after it |
| Ensemble.EntryOrder | ensemble.py:63-64 | within a group, the attempts of an entry come after those of the entries before it and before those of the entries after it |
| Ensemble.EntryAttempts | ensemble.py:64-65 | an entry yields one attempt per value, the `k`-th for its `k`-th value, each naming the entry's file, group and name |
| Ensemble.AttemptsAppend | ensemble.py:60-64 | the attempts of two lists of namelist files in turn are those of the first followed by those of the second |
| Ensemble.RunUpTo | ensemble.py:60-212 | the loop decides at most the given number of attempts, all of them unless it stopped, stops exactly on an unbound sync destination, and only at its last outcome |
| Ensemble.RunInvariants | ensemble.py:69-212 | throughout the loop the ensemble list is the paths of found or committed outcomes in order, and the existing paths are the initial ones plus those left by attempts |
| Ensemble.RunPaths | ensemble.py:65 | outcome `i` is about the path derived for attempt `i` |
| Ensemble.OutcomeAt | ensemble.py:60-212 | outcome `i` is the decision for attempt `i` taken against the state the earlier attempts left, and that state had not stopped |
| Ensemble.AlreadyExistsIff | ensemble.py:69-72 | an attempt finds its directory exactly when it existed before the run or an earlier attempt left it |
| Ensemble.CommittedOnce | ensemble.py:69-212 | no directory is committed twice in one run |
| Ensemble.EnsembleMembers | ensemble.py:71-212 | the ensemble list holds exactly the paths of attempts that found or committed their member |
| Ensemble.RerunChangesNothing | ensemble.py:69-72 | when every attempt found or committed its member, a second run over what the first left finds every member, creates nothing and produces the same list |
| Runs.CountOutputs | ensemble.py:217 | the count of matching archive entries is zero exactly when none matches, and the whole listing exactly when all match |
| Runs.ReportCounts | ensemble.py:217-227 | a member is asked for more runs exactly when it has at most `nruns` output directories; runs asked for plus runs done equal `nruns`; otherwise it has done at least `nruns` |
| Runs.CommandReadsBack | ensemble.py:221-223 | the command starts with `# ` exactly in test mode, changes to the member's directory, and ends in digits that read back as the number of new runs |
| Runs.ReconcileReports | ensemble.py:215-227 | no reports unless `nruns` is positive; then one report per ensemble entry, in order, each about that entry's own archive |
| Runs.WorldOf | ensemble.py:54-58 | the start state every attempt sees is normalised once: a token of the normalised shape, which is `rest` exactly when the stripped, lower-cased text is; the template path is the template joined onto the working directory |
| Runs.PerformReports | ensemble.py:54-227 | for the settings read from `ensemble.yaml`, nothing is reported exactly when some attempt found no sync destination bound, and then it is the last attempt decided; otherwise every attempt was decided and the reports follow the ensemble list |

## Left out

- Git, `payu`, `subprocess` and the filesystem are not modelled. They appear as
  inputs and as the effect trace:
  - the dirty check, the namelist comparison, the work path after setup, and
    the archive listing are fields of `Observation`;
  - existence is a set of paths;
  - symbolic-link resolution is the `realpath` parameter.
- The test-mode simulation of `payu setup` (lines 131–148) is not modelled. The
  work path is an observation in both modes.
- Reading and patching namelists with `f90nml`, and the cosine and sine of the
  turning angle, are not modelled because they involve floating point. The
  comparison with the template is the boolean `matchesTemplate`. The patch is
  recorded as the keys written: `cosw` then `sinw`, or the entry's own name.
- Loading and dumping YAML, and the `LiteralString` block style, are not
  modelled. `metadata.yaml` is a record of description, notes and keywords.
  Only the edits to these fields are modelled.
- The `namelists` mapping of `ensemble.yaml` is a sequence of files, groups and
  entries in the mapping's order. Unlike a mapping, the sequence can repeat a
  file, group or entry name. The model does not exclude this; the order and
  count lemmas hold either way.
- Non-integer scalars from `ensemble.yaml` (floats, booleans, strings) are
  represented by the text `str()` gives for them. Python's float formatting is
  not modelled.
- `os.path.relpath` is not modelled. The directory name is taken as the
  `basename` of the absolute path. That is the same name `relpath` would give
  when the template's basename, the entry name and `str()` of the value contain
  no `/`, which is what `Naming.ExpNameShape` assumes; a `/` in any of them is
  not modelled.
- Naming.NormaliseStartFrom: `lower()` is modelled on ASCII letters only.
  Non-ASCII upper-case characters are not lower-cased.
- The removal of `run_summary_*.csv` files from the clone (lines 205–207) is
  not modelled. It is a git operation on files the model does not track.
- Missing keys in `ensemble.yaml` or `metadata.yaml` are not modelled.
- A null `description` or `keywords` in `metadata.yaml` makes the program raise
  `TypeError` (lines 185 and 199). The model reads both as present: a
  description is a string and keywords are a list. A null `notes` is modelled.
- Printed messages, the command-line parser, and the import error message are
  not modelled.
- Paths are compared as strings, both in the existence test of a variant's
  directory (line 69) and in that of the sync destination (line 123). A
  relative destination is joined onto the working directory, but `.`, `..`,
  repeated `/` and symbolic links are not resolved. Paths inside a directory
  exist only if they are among the paths given as existing, so a destination
  inside the clone just made is not seen as existing.
- Observations are fixed per attempt. Whether git sees changes, or what the
  archive holds, cannot depend on what earlier attempts did, except through the
  set of existing paths, which the model tracks.

=== FILE: ensemble.dfy ===
/** Building an ensemble: every value of every perturbed namelist entry is
    one attempt, the attempts are decided in document order, and the paths of
    the members that exist at the end, whether found or newly committed, form
    the ensemble list in that order. */
module Ensemble {
  import opened Text
  import opened Naming
  import opened Variant

  /* ---------------------------------------------------------------------
     The perturbation specification
     --------------------------------------------------------------------- */

  /** Namelist file, then group, then entry, then the list of values, each
      level in document order. */
  datatype Entry = Entry(name: string, values: seq<Scalar>)
  datatype Group = Group(group: string, entries: seq<Entry>)
  datatype NamelistFile = NamelistFile(file: string, groups: seq<Group>)

  function EntryAttempts(file: string, group: string, e: Entry): (r: seq<Attempt>)
    ensures |r| == |e.values|
    ensures forall k :: 0 <= k < |r| ==> r[k] == Attempt(file, group, e.name, e.values[k])
  {
    seq(|e.values|, k requires 0 <= k < |e.values| => Attempt(file, group, e.name, e.values[k]))
  }

  function EntriesAttempts(file: string, group: string, entries: seq<Entry>): (r: seq<Attempt>)
    ensures forall a :: a in r <==> exists k :: 0 <= k < |entries| && a in EntryAttempts(file, group, entries[k])
  {
    if |entries| == 0 then []
    else EntriesAttempts(file, group, entries[..|entries| - 1]) + EntryAttempts(file, group, entries[|entries| - 1])
  }

  function GroupAttempts(file: string, g: Group): seq<Attempt>
  {
    EntriesAttempts(file, g.group, g.entries)
  }

  function GroupsAttempts(file: string, groups: seq<Group>): (r: seq<Attempt>)
    ensures forall a :: a in r <==> exists k :: 0 <= k < |groups| && a in GroupAttempts(file, groups[k])
  {
    if |groups| == 0 then []
    else GroupsAttempts(file, groups[..|groups| - 1]) + GroupAttempts(file, groups[|groups| - 1])
  }

  function FileAttempts(f: NamelistFile): seq<Attempt>
  {
    GroupsAttempts(f.file, f.groups)
  }

  /** All attempts, in the order the nested loops visit them. */
  function Attempts(spec: seq<NamelistFile>): (r: seq<Attempt>)
    ensures forall a :: a in r <==> exists k :: 0 <= k < |spec| && a in FileAttempts(spec[k])
  {
    if |spec| == 0 then []
    else Attempts(spec[..|spec| - 1]) + FileAttempts(spec[|spec| - 1])
  }

  /** An attempt is made exactly for each value listed under its file, group
      and entry. */
  lemma AttemptsAreTheValues(spec: seq<NamelistFile>, a: Attempt)
    ensures a in Attempts(spec) <==>
      exists i, j, k :: 0 <= i < |spec| && 0 <= j < |spec[i].groups| && 0 <= k < |spec[i].groups[j].entries|
        && a.file == spec[i].file && a.group == spec[i].groups[j].group
        && a.name == spec[i].groups[j].entries[k].name && a.value in spec[i].groups[j].entries[k].values
  {
    if a in Attempts(spec) {
      var i :| 0 <= i < |spec| && a in FileAttempts(spec[i]);
      var j :| 0 <= j < |spec[i].groups| && a in GroupAttempts(spec[i].file, spec[i].groups[j]);
      var k :| 0 <= k < |spec[i].groups[j].entries| && a in EntryAttempts(spec[i].file, spec[i].groups[j].group, spec[i].groups[j].entries[k]);
      EntryHasAttempt(spec[i].file, spec[i].groups[j].group, spec[i].groups[j].entries[k], a);
    }
    if exists i, j, k :: 0 <= i < |spec| && 0 <= j < |spec[i].groups| && 0 <= k < |spec[i].groups[j].entries|
        && a.file == spec[i].file && a.group == spec[i].groups[j].group
        && a.name == spec[i].groups[j].entries[k].name && a.value in spec[i].groups[j].entries[k].values
    {
      var i, j, k :| 0 <= i < |spec| && 0 <= j < |spec[i].groups| && 0 <= k < |spec[i].groups[j].entries|
        && a.file == spec[i].file && a.group == spec[i].groups[j].group
        && a.name == spec[i].groups[j].entries[k].name && a.value in spec[i].groups[j].entries[k].values;
      EntryHasAttempt(spec[i].file, spec[i].groups[j].group, spec[i].groups[j].entries[k], a);
      assert a in GroupAttempts(spec[i].file, spec[i].groups[j]);
      assert a in FileAttempts(spec[i]);
    }
  }

  /** One entry yields an attempt exactly for each of its values. */
  lemma EntryHasAttempt(file: string, group: string, e: Entry, a: Attempt)
    ensures a in EntryAttempts(file, group, e) <==>
      a.file == file && a.group == group && a.name == e.name && a.value in e.values
  {
    var es := EntryAttempts(file, group, e);
    if a in es {
      var m :| 0 <= m < |es| && es[m] == a;
      assert a.value == e.values[m];
    }
    if a.file == file && a.group == group && a.name == e.name && a.value in e.values {
      var m :| 0 <= m < |e.values| && e.values[m] == a.value;
      assert es[m] == a;
    }
  }

  /* ---------------------------------------------------------------------
     How many attempts, and in which order
     --------------------------------------------------------------------- */

  /** The number of values listed under some entries, groups, or files. */
  function EntriesValues(entries: seq<Entry>): nat
  {
    if |entries| == 0 then 0 else EntriesValues(entries[..|entries| - 1]) + |entries[|entries| - 1].values|
  }

  function GroupsValues(groups: seq<Group>): nat
  {
    if |groups| == 0 then 0 else GroupsValues(groups[..|groups| - 1]) + EntriesValues(groups[|groups| - 1].entries)
  }

  function ValueCount(spec: seq<NamelistFile>): nat
  {
    if |spec| == 0 then 0 else ValueCount(spec[..|spec| - 1]) + GroupsValues(spec[|spec| - 1].groups)
  }

  /** One attempt per listed value: a value listed twice is tried twice. */
  lemma {:induction false} AttemptsCount(spec: seq<NamelistFile>)
    ensures |Attempts(spec)| == ValueCount(spec)
    decreases |spec|
  {
    if |spec| > 0 {
      var f := spec[|spec| - 1];
      AttemptsCount(spec[..|spec| - 1]);
      GroupsAttemptsCount(f.file, f.groups);
    }
  }

  lemma {:induction false} GroupsAttemptsCount(file: string, groups: seq<Group>)
    ensures |GroupsAttempts(file, groups)| == GroupsValues(groups)
    decreases |groups|
  {
    if |groups| > 0 {
      var g := groups[|groups| - 1];
      GroupsAttemptsCount(file, groups[..|groups| - 1]);
      EntriesAttemptsCount(file, g.group, g.entries);
    }
  }

  lemma {:induction false} EntriesAttemptsCount(file: string, group: string, entries: seq<Entry>)
    ensures |EntriesAttempts(file, group, entries)| == EntriesValues(entries)
    decreases |entries|
  {
    if |entries| > 0 {
      EntriesAttemptsCount(file, group, entries[..|entries| - 1]);
    }
  }

  /** The attempts for two consecutive stretches of the specification are
      those of the first followed by those of the second: attempts follow
      document order. */
  lemma {:induction false} AttemptsAppend(x: seq<NamelistFile>, y: seq<NamelistFile>)
    ensures Attempts(x + y) == Attempts(x) + Attempts(y)
    decreases |y|
  {
    if |y| == 0 {
      assert x + y == x;
    } else {
      var init := y[..|y| - 1];
      var last := y[|y| - 1];
      assert (x + y)[..|x + y| - 1] == x + init;
      assert (x + y)[|x + y| - 1] == last;
      assert Attempts(x + y) == Attempts(x + init) + FileAttempts(last);
      assert Attempts(y) == Attempts(init) + FileAttempts(last);
      AttemptsAppend(x, init);
    }
  }

  lemma {:induction false} GroupsAttemptsAppend(file: string, x: seq<Group>, y: seq<Group>)
    ensures GroupsAttempts(file, x + y) == GroupsAttempts(file, x) + GroupsAttempts(file, y)
    decreases |y|
  {
    if |y| == 0 {
      assert x + y == x;
    } else {
      var init := y[..|y| - 1];
      var last := y[|y| - 1];
      assert (x + y)[..|x + y| - 1] == x + init;
      assert (x + y)[|x + y| - 1] == last;
      assert GroupsAttempts(file, x + y) == GroupsAttempts(file, x + init) + GroupAttempts(file, last);
      assert GroupsAttempts(file, y) == GroupsAttempts(file, init) + GroupAttempts(file, last);
      GroupsAttemptsAppend(file, x, init);
    }
  }

  lemma {:induction false} EntriesAttemptsAppend(file: string, group: string, x: seq<Entry>, y: seq<Entry>)
    ensures EntriesAttempts(file, group, x + y) == EntriesAttempts(file, group, x) + EntriesAttempts(file, group, y)
    decreases |y|
  {
    if |y| == 0 {
      assert x + y == x;
    } else {
      var init := y[..|y| - 1];
      var last := y[|y| - 1];
      assert (x + y)[..|x + y| - 1] == x + init;
      assert (x + y)[|x + y| - 1] == last;
      assert EntriesAttempts(file, group, x + y) == EntriesAttempts(file, group, x + init) + EntryAttempts(file, group, last);
      assert EntriesAttempts(file, group, y) == EntriesAttempts(file, group, init) + EntryAttempts(file, group, last);
      EntriesAttemptsAppend(file, group, x, init);
    }
  }

  /** A sequence is what comes before index `i`, the element there, and what
      comes after. */
  lemma AroundIndex<T>(s: seq<T>, i: nat)
    requires i < |s|
    ensures s == s[..i] + [s[i]] + s[i + 1..]
  {
  }

  /** In document order: the attempts of file `i` come after those of the
      files before it and before those of the files after it. `GroupOrder`
      and `EntryOrder` say the same within a file and within a group, and an
      entry's attempts are its values in order. */
  lemma DocumentOrder(spec: seq<NamelistFile>, i: nat)
    requires i < |spec|
    ensures Attempts(spec) == Attempts(spec[..i]) + FileAttempts(spec[i]) + Attempts(spec[i + 1..])
  {
    AroundIndex(spec, i);
    AttemptsAppend(spec[..i] + [spec[i]], spec[i + 1..]);
    AttemptsAppend(spec[..i], [spec[i]]);
    assert Attempts([spec[i]]) == Attempts([]) + FileAttempts(spec[i]) by { assert [spec[i]][..0] == []; }
  }

  lemma GroupOrder(file: string, groups: seq<Group>, j: nat)
    requires j < |groups|
    ensures GroupsAttempts(file, groups)
         == GroupsAttempts(file, groups[..j]) + GroupAttempts(file, groups[j]) + GroupsAttempts(file, groups[j + 1..])
  {
    AroundIndex(groups, j);
    GroupsAttemptsAppend(file, groups[..j] + [groups[j]], groups[j + 1..]);
    GroupsAttemptsAppend(file, groups[..j], [groups[j]]);
    assert GroupsAttempts(file, [groups[j]]) == GroupsAttempts(file, []) + GroupAttempts(file, groups[j])
      by { assert [groups[j]][..0] == []; }
  }

  lemma EntryOrder(file: string, group: string, entries: seq<Entry>, k: nat)
    requires k < |entries|
    ensures EntriesAttempts(file, group, entries)
         == EntriesAttempts(file, group, entries[..k]) + EntryAttempts(file, group, entries[k])
            + EntriesAttempts(file, group, entries[k + 1..])
  {
    AroundIndex(entries, k);
    EntriesAttemptsAppend(file, group, entries[..k] + [entries[k]], entries[k + 1..]);
    EntriesAttemptsAppend(file, group, entries[..k], [entries[k]]);
    assert EntriesAttempts(file, group, [entries[k]]) == EntriesAttempts(file, group, []) + EntryAttempts(file, group, entries[k])
      by { assert [entries[k]][..0] == []; }
  }

  /* ---------------------------------------------------------------------
     Deciding the attempts in order
     --------------------------------------------------------------------- */

  /** Everything outside the generator that a run observes: the shared
      settings, the paths that exist before it starts, and what it learns
      about each attempt. */
  datatype World = World(ctx: Context, existing: set<string>, observe: Attempt -> Observation)

  /** A decision for one attempt, given the paths that exist and the
      `syncdir` variable. The loop below is stated for any decision, so that
      its bookkeeping is established apart from what one attempt does. */
  type Decider = (Attempt, set<string>, Option<string>) -> Step

  /** The generator's own decision in a given world. */
  function Decision(w: World): Decider
  {
    (a: Attempt, present: set<string>, syncDir: Option<string>) => Decide(w.ctx, a, w.observe(a), present, syncDir)
  }

  /** The state of a run after some attempts: their outcomes, the ensemble
      list so far, the paths that exist now, the `syncdir` variable, and
      whether the run stopped on an unbound sync destination. */
  datatype Run = Run(outcomes: seq<Outcome>, ensemble: seq<string>, present: set<string>,
                     syncDir: Option<string>, aborted: bool)

  /** The paths outcomes add to the ensemble list, in order. */
  function Contributions(outcomes: seq<Outcome>): (r: seq<string>)
    ensures |r| <= |outcomes|
    ensures forall x :: x in r <==> exists i :: 0 <= i < |outcomes| && outcomes[i].Contributes() && outcomes[i].Path() == x
  {
    if |outcomes| == 0 then []
    else
      var last := outcomes[|outcomes| - 1];
      var init := outcomes[..|outcomes| - 1];
      assert forall i :: 0 <= i < |init| ==> init[i] == outcomes[i];
      Contributions(init) + (if last.Contributes() then [last.Path()] else [])
  }

  /** The directories a run's attempts leave behind. */
  function LeftBehind(outcomes: seq<Outcome>): set<string>
  {
    set i | 0 <= i < |outcomes| && outcomes[i].LeavesDirectory() :: outcomes[i].Path()
  }

  lemma LeftBehindAppend(outcomes: seq<Outcome>, o: Outcome)
    ensures LeftBehind(outcomes + [o]) == LeftBehind(outcomes) + (if o.LeavesDirectory() then {o.Path()} else {})
  {
    var all := outcomes + [o];
    assert forall i :: 0 <= i < |outcomes| ==> all[i] == outcomes[i];
    assert all[|outcomes|] == o;
  }

  /** One iteration of the generator's loop: decide the attempt against
      the paths that exist now and record its outcome. */
  function Advance(decide: Decider, prev: Run, a: Attempt): Run
  {
    var step := decide(a, prev.present, prev.syncDir);
    var o := step.outcome;
    Run(prev.outcomes + [o],
        prev.ensemble + (if o.Contributes() then [o.Path()] else []),
        prev.present + (if o.LeavesDirectory() then {o.Path()} else {}),
        step.syncDir,
        o.SyncDirUnbound?)
  }

  /** One iteration appends the attempt's outcome, stops the run exactly on
      an unbound sync destination, and keeps the ensemble list and the set of
      existing paths in step with the outcomes. */
  lemma AdvanceKeeps(decide: Decider, existing: set<string>, prev: Run, a: Attempt)
    ensures var r := Advance(decide, prev, a);
      && |r.outcomes| == |prev.outcomes| + 1 && r.outcomes[..|prev.outcomes|] == prev.outcomes
      && r.outcomes[|prev.outcomes|] == decide(a, prev.present, prev.syncDir).outcome
      && (r.aborted <==> r.outcomes[|prev.outcomes|].SyncDirUnbound?)
      && (prev.ensemble == Contributions(prev.outcomes) ==> r.ensemble == Contributions(r.outcomes))
      && (prev.present == existing + LeftBehind(prev.outcomes) ==> r.present == existing + LeftBehind(r.outcomes))
  {
    var o := decide(a, prev.present, prev.syncDir).outcome;
    LeftBehindAppend(prev.outcomes, o);
    assert (prev.outcomes + [o])[..|prev.outcomes|] == prev.outcomes;
  }

  /** Only the last outcome may stop the run. */
  predicate StopsOnlyAtEnd(outcomes: seq<Outcome>)
  {
    forall i :: 0 <= i < |outcomes| - 1 ==> !outcomes[i].SyncDirUnbound?
  }

  /** The generator's loop over the first `n` attempts, starting from the
      paths in `existing`. Attempts are decided in order, each seeing the
      paths created by the ones before it; the run stops at the first attempt
      whose sync destination was never bound. */
  function RunUpTo(decide: Decider, existing: set<string>, attempts: seq<Attempt>, n: nat): (r: Run)
    requires n <= |attempts|
    ensures |r.outcomes| <= n
    ensures !r.aborted ==> |r.outcomes| == n
    ensures r.aborted <==> |r.outcomes| > 0 && r.outcomes[|r.outcomes| - 1].SyncDirUnbound?
    ensures StopsOnlyAtEnd(r.outcomes)
  {
    if n == 0 then Run([], [], existing, None, false)
    else
      var prev := RunUpTo(decide, existing, attempts, n - 1);
      if prev.aborted then prev
      else
        var r := Advance(decide, prev, attempts[n - 1]);
        KeepsRunning(prev.outcomes, r.outcomes);
        r
  }

  /** The generator's loop over all attempts. */
  function Generate(w: World, attempts: seq<Attempt>): Run
  {
    RunUpTo(Decision(w), w.existing, attempts, |attempts|)
  }

  lemma KeepsRunning(prev: seq<Outcome>, next: seq<Outcome>)
    requires |next| == |prev| + 1 && next[..|prev|] == prev
    requires StopsOnlyAtEnd(prev) && (|prev| > 0 ==> !prev[|prev| - 1].SyncDirUnbound?)
    ensures StopsOnlyAtEnd(next)
  {
    forall i | 0 <= i < |prev| ensures next[i] == prev[i] {
      assert next[i] == next[..|prev|][i];
    }
  }

  /* ---------------------------------------------------------------------
     The loop, for any decision
     --------------------------------------------------------------------- */

  /** One turn of the loop: a stopped run stays as it is, otherwise the next
      attempt's outcome is appended. */
  lemma RunStep(decide: Decider, existing: set<string>, attempts: seq<Attempt>, n: nat)
    requires 0 < n <= |attempts|
    ensures var prev := RunUpTo(decide, existing, attempts, n - 1);
      var r := RunUpTo(decide, existing, attempts, n);
      && (prev.aborted ==> r == prev)
      && (!prev.aborted ==>
            && r == Advance(decide, prev, attempts[n - 1])
            && |r.outcomes| == |prev.outcomes| + 1 && r.outcomes[..|prev.outcomes|] == prev.outcomes)
  {
    var prev := RunUpTo(decide, existing, attempts, n - 1);
    if !prev.aborted {
      AdvanceKeeps(decide, existing, prev, attempts[n - 1]);
    }
  }

  lemma PrefixOfPrefix(a: seq<Outcome>, b: seq<Outcome>, m: nat)
    requires m <= |a| <= |b| && b[..|a|] == a
    ensures b[..m] == a[..m]
  {
    assert forall k :: 0 <= k < m ==> b[k] == b[..|a|][k];
  }

  /** The run over `n` attempts keeps the outcomes of every shorter run, and
      a shorter run that a longer one goes past had not stopped. */
  lemma {:induction false} RunPrefix(decide: Decider, existing: set<string>, attempts: seq<Attempt>, m: nat, n: nat)
    requires m <= n <= |attempts|
    requires m <= |RunUpTo(decide, existing, attempts, n).outcomes|
    ensures RunUpTo(decide, existing, attempts, m).outcomes == RunUpTo(decide, existing, attempts, n).outcomes[..m]
    ensures m < |RunUpTo(decide, existing, attempts, n).outcomes| ==> !RunUpTo(decide, existing, attempts, m).aborted
    decreases n
  {
    var r := RunUpTo(decide, existing, attempts, n);
    if m == n {
      assert r.outcomes[..m] == r.outcomes;
    } else {
      var prev := RunUpTo(decide, existing, attempts, n - 1);
      RunStep(decide, existing, attempts, n);
      if prev.aborted {
        assert r == prev;
        RunPrefix(decide, existing, attempts, m, n - 1);
      } else {
        assert |prev.outcomes| == n - 1;
        RunPrefix(decide, existing, attempts, m, n - 1);
        PrefixOfPrefix(prev.outcomes, r.outcomes, m);
      }
    }
  }

  /** The ensemble list holds exactly the paths of the outcomes that
      contribute, in order, and the paths that exist are those that existed
      before the run plus those its attempts left behind. */
  predicate InStep(existing: set<string>, r: Run)
  {
    r.ensemble == Contributions(r.outcomes) && r.present == existing + LeftBehind(r.outcomes)
  }

  lemma AdvanceInStep(decide: Decider, existing: set<string>, prev: Run, a: Attempt)
    requires InStep(existing, prev)
    ensures InStep(existing, Advance(decide, prev, a))
  {
    AdvanceKeeps(decide, existing, prev, a);
  }

  /** Throughout the loop the run stays in step with its outcomes. */
  lemma {:induction false} RunInvariants(decide: Decider, existing: set<string>, attempts: seq<Attempt>, n: nat)
    requires n <= |attempts|
    ensures InStep(existing, RunUpTo(decide, existing, attempts, n))
  {
    if n == 0 {
      assert LeftBehind([]) == {};
    } else {
      var prev := RunUpTo(decide, existing, attempts, n - 1);
      RunInvariants(decide, existing, attempts, n - 1);
      if !prev.aborted {
        AdvanceInStep(decide, existing, prev, attempts[n - 1]);
      }
    }
  }

  /** Every decision is about the attempt's own path. */
  ghost predicate DecidesAt(decide: Decider, path: Attempt -> string)
  {
    forall a, present, syncDir :: decide(a, present, syncDir).outcome.Path() == path(a)
  }

  /** The path of every attempt, in order. */
  function AttemptPaths(path: Attempt -> string, attempts: seq<Attempt>): (r: seq<string>)
    ensures |r| == |attempts|
  {
    if |attempts| == 0 then []
    else AttemptPaths(path, attempts[..|attempts| - 1]) + [path(attempts[|attempts| - 1])]
  }

  lemma {:induction false} AttemptPathsAt(path: Attempt -> string, attempts: seq<Attempt>, i: nat)
    requires i < |attempts|
    ensures AttemptPaths(path, attempts)[i] == path(attempts[i])
    decreases |attempts|
  {
    var init := attempts[..|attempts| - 1];
    if i < |init| {
      AttemptPathsAt(path, init, i);
      assert init[i] == attempts[i];
    }
  }

  /** Outcome `i` has path `paths[i]`. */
  predicate PathsAre(outcomes: seq<Outcome>, paths: seq<string>)
    requires |outcomes| <= |paths|
  {
    forall i :: 0 <= i < |outcomes| ==> outcomes[i].Path() == paths[i]
  }

  /** Appending the outcome of a decision about the next attempt's own path
      keeps outcome `i` at `paths[i]`. */
  lemma PathsExtend(decide: Decider, path: Attempt -> string, prev: Run, a: Attempt, paths: seq<string>)
    requires |prev.outcomes| < |paths| && paths[|prev.outcomes|] == path(a)
    requires PathsAre(prev.outcomes, paths) && DecidesAt(decide, path)
    ensures |Advance(decide, prev, a).outcomes| <= |paths|
    ensures PathsAre(Advance(decide, prev, a).outcomes, paths)
  {
    var next := Advance(decide, prev, a).outcomes;
    assert next == prev.outcomes + [decide(a, prev.present, prev.syncDir).outcome];
    forall i | 0 <= i < |next| ensures next[i].Path() == paths[i] {
      if i < |prev.outcomes| {
        assert next[i] == prev.outcomes[i];
      }
    }
  }

  /** With a decision about each attempt's own path, outcome `i` belongs to
      attempt `i` throughout the loop. */
  lemma {:induction false} RunPathsAre(decide: Decider, existing: set<string>, path: Attempt -> string, attempts: seq<Attempt>, n: nat)
    requires n <= |attempts| && DecidesAt(decide, path)
    ensures PathsAre(RunUpTo(decide, existing, attempts, n).outcomes, AttemptPaths(path, attempts))
  {
    if n > 0 {
      var prev := RunUpTo(decide, existing, attempts, n - 1);
      var r := RunUpTo(decide, existing, attempts, n);
      RunPathsAre(decide, existing, path, attempts, n - 1);
      RunStep(decide, existing, attempts, n);
      if prev.aborted {
        assert r.outcomes == prev.outcomes;
      } else {
        AttemptPathsAt(path, attempts, n - 1);
        PathsExtend(decide, path, prev, attempts[n - 1], AttemptPaths(path, attempts));
        assert r.outcomes == Advance(decide, prev, attempts[n - 1]).outcomes;
      }
    }
  }

  /** A decision that finds every path already present. */
  ghost predicate FindsExisting(decide: Decider, path: Attempt -> string)
  {
    forall a, present, syncDir :: path(a) in present ==> decide(a, present, syncDir).outcome.AlreadyExists?
  }

  lemma FoundStep(decide: Decider, path: Attempt -> string, prev: Run, a: Attempt)
    requires FindsExisting(decide, path) && path(a) in prev.present
    requires forall i :: 0 <= i < |prev.outcomes| ==> prev.outcomes[i].AlreadyExists?
    ensures var r := Advance(decide, prev, a);
      && !r.aborted && r.present == prev.present
      && forall i :: 0 <= i < |r.outcomes| ==> r.outcomes[i].AlreadyExists?
  {
    var o := decide(a, prev.present, prev.syncDir).outcome;
    var next := prev.outcomes + [o];
    assert o.AlreadyExists?;
    forall i | 0 <= i < |next| ensures next[i].AlreadyExists? {
      if i < |prev.outcomes| {
        assert next[i] == prev.outcomes[i];
      }
    }
  }

  /** When every attempt's directory is there from the start and the decision
      finds what is present, every attempt finds it, nothing is created, and
      the run does not stop. */
  lemma {:induction false} AllFound(decide: Decider, existing: set<string>, path: Attempt -> string, attempts: seq<Attempt>, n: nat)
    requires n <= |attempts| && FindsExisting(decide, path)
    requires forall i :: 0 <= i < |attempts| ==> path(attempts[i]) in existing
    ensures var r := RunUpTo(decide, existing, attempts, n);
      && !r.aborted && r.present == existing
      && forall i :: 0 <= i < |r.outcomes| ==> r.outcomes[i].AlreadyExists?
  {
    if n > 0 {
      var prev := RunUpTo(decide, existing, attempts, n - 1);
      AllFound(decide, existing, path, attempts, n - 1);
      RunStep(decide, existing, attempts, n);
      FoundStep(decide, path, prev, attempts[n - 1]);
    }
  }

  /* ---------------------------------------------------------------------
     Properties of the generator's run
     --------------------------------------------------------------------- */

  /** The path of an attempt in a given setting, as a function. */
  function PathOf(ctx: Context): Attempt -> string
  {
    (a: Attempt) => AttemptPath(ctx, a)
  }

  lemma DecisionDecidesAt(w: World)
    ensures DecidesAt(Decision(w), PathOf(w.ctx))
  {
    forall a, present, syncDir ensures Decision(w)(a, present, syncDir).outcome.Path() == AttemptPath(w.ctx, a) {
      DecidePath(w.ctx, a, w.observe(a), present, syncDir);
    }
  }

  lemma DecisionFindsExisting(w: World)
    ensures FindsExisting(Decision(w), PathOf(w.ctx))
  {
    forall a, present, syncDir | AttemptPath(w.ctx, a) in present
      ensures Decision(w)(a, present, syncDir).outcome.AlreadyExists?
    {
      DecisionOrder(w.ctx, a, w.observe(a), present, syncDir);
    }
  }

  /** Outcome `i` belongs to attempt `i`. */
  predicate PathsMatch(ctx: Context, outcomes: seq<Outcome>, attempts: seq<Attempt>)
    requires |outcomes| <= |attempts|
  {
    forall i :: 0 <= i < |outcomes| ==> outcomes[i].Path() == AttemptPath(ctx, attempts[i])
  }

  /** Outcome `i` of the generator's run belongs to attempt `i`. */
  lemma RunPaths(w: World, attempts: seq<Attempt>)
    ensures PathsMatch(w.ctx, Generate(w, attempts).outcomes, attempts)
  {
    var outcomes := Generate(w, attempts).outcomes;
    DecisionDecidesAt(w);
    RunPathsAre(Decision(w), w.existing, PathOf(w.ctx), attempts, |attempts|);
    forall i | 0 <= i < |outcomes| ensures outcomes[i].Path() == AttemptPath(w.ctx, attempts[i]) {
      AttemptPathsAt(PathOf(w.ctx), attempts, i);
    }
  }

  /** Outcome `i` of a run is the decision for attempt `i` taken against the
      run over the first `i` attempts, which had not stopped. */
  lemma OutcomeAt(w: World, attempts: seq<Attempt>, i: nat)
    requires i < |Generate(w, attempts).outcomes|
    ensures var before := RunUpTo(Decision(w), w.existing, attempts, i);
      && !before.aborted
      && before.outcomes == Generate(w, attempts).outcomes[..i]
      && Generate(w, attempts).outcomes[i]
         == Decide(w.ctx, attempts[i], w.observe(attempts[i]), before.present, before.syncDir).outcome
  {
    DecidedAt(Decision(w), w.existing, attempts, i);
  }

  /** `OutcomeAt` for any decision. */
  lemma DecidedAt(decide: Decider, existing: set<string>, attempts: seq<Attempt>, i: nat)
    requires i < |RunUpTo(decide, existing, attempts, |attempts|).outcomes|
    ensures var before := RunUpTo(decide, existing, attempts, i);
      var outcomes := RunUpTo(decide, existing, attempts, |attempts|).outcomes;
      && !before.aborted
      && before.outcomes == outcomes[..i]
      && outcomes[i] == decide(attempts[i], before.present, before.syncDir).outcome
  {
    var n := |attempts|;
    RunPrefix(decide, existing, attempts, i, n);
    RunPrefix(decide, existing, attempts, i + 1, n);
    var before := RunUpTo(decide, existing, attempts, i);
    var after := RunUpTo(decide, existing, attempts, i + 1);
    RunStep(decide, existing, attempts, i + 1);
    AdvanceKeeps(decide, existing, before, attempts[i]);
    assert after.outcomes[i] == after.outcomes[..i + 1][i];
  }

  /** The paths a run has made or found before attempt `i`: those that
      existed and those left by earlier attempts. */
  lemma PresentBefore(w: World, attempts: seq<Attempt>, i: nat)
    requires i < |Generate(w, attempts).outcomes|
    ensures var outcomes := Generate(w, attempts).outcomes;
      forall x :: x in RunUpTo(Decision(w), w.existing, attempts, i).present <==>
        x in w.existing || exists j :: 0 <= j < i && outcomes[j].LeavesDirectory() && outcomes[j].Path() == x
  {
    var outcomes := Generate(w, attempts).outcomes;
    var before := RunUpTo(Decision(w), w.existing, attempts, i);
    OutcomeAt(w, attempts, i);
    RunInvariants(Decision(w), w.existing, attempts, i);
    forall x ensures x in LeftBehind(before.outcomes) <==>
      exists j :: 0 <= j < i && outcomes[j].LeavesDirectory() && outcomes[j].Path() == x
    {
      if exists j :: 0 <= j < i && outcomes[j].LeavesDirectory() && outcomes[j].Path() == x {
        var j :| 0 <= j < i && outcomes[j].LeavesDirectory() && outcomes[j].Path() == x;
        assert before.outcomes[j] == outcomes[j];
      }
    }
  }

  /** An attempt finds its directory already there exactly when the
      directory existed before the run or an earlier attempt left it. */
  lemma AlreadyExistsIff(w: World, attempts: seq<Attempt>, i: nat)
    requires i < |Generate(w, attempts).outcomes|
    ensures var outcomes := Generate(w, attempts).outcomes;
      var p := AttemptPath(w.ctx, attempts[i]);
      outcomes[i].AlreadyExists? <==>
        p in w.existing || exists j :: 0 <= j < i && outcomes[j].LeavesDirectory() && outcomes[j].Path() == p
  {
    var before := RunUpTo(Decision(w), w.existing, attempts, i);
    OutcomeAt(w, attempts, i);
    PresentBefore(w, attempts, i);
    DecisionOrder(w.ctx, attempts[i], w.observe(attempts[i]), before.present, before.syncDir);
  }

  /** No directory is committed twice in one run: a later attempt with the
      same path finds it already there. */
  lemma CommittedOnce(w: World, attempts: seq<Attempt>, i: nat, j: nat)
    requires i < j < |Generate(w, attempts).outcomes|
    requires Generate(w, attempts).outcomes[i].Committed?
    ensures Generate(w, attempts).outcomes[j].Committed? ==>
      Generate(w, attempts).outcomes[j].Path() != Generate(w, attempts).outcomes[i].Path()
  {
    var outcomes := Generate(w, attempts).outcomes;
    RunPaths(w, attempts);
    AlreadyExistsIff(w, attempts, j);
    if outcomes[j].Path() == outcomes[i].Path() {
      assert outcomes[j].Path() == AttemptPath(w.ctx, attempts[j]);
      assert outcomes[j].AlreadyExists?;
    }
  }

  /** The ensemble list names, in order, every member found or committed. */
  lemma EnsembleMembers(w: World, attempts: seq<Attempt>)
    ensures var r := Generate(w, attempts);
      && |r.ensemble| <= |r.outcomes| <= |attempts|
      && forall x :: x in r.ensemble <==>
           exists i :: 0 <= i < |r.outcomes| && (r.outcomes[i].AlreadyExists? || r.outcomes[i].Committed?)
                       && AttemptPath(w.ctx, attempts[i]) == x
  {
    var r := Generate(w, attempts);
    RunInvariants(Decision(w), w.existing, attempts, |attempts|);
    RunPaths(w, attempts);
    forall x ensures x in r.ensemble <==>
      exists i :: 0 <= i < |r.outcomes| && (r.outcomes[i].AlreadyExists? || r.outcomes[i].Committed?)
                  && AttemptPath(w.ctx, attempts[i]) == x
    {
      if x in r.ensemble {
        var i :| 0 <= i < |r.outcomes| && r.outcomes[i].Contributes() && r.outcomes[i].Path() == x;
        assert r.outcomes[i].Path() == AttemptPath(w.ctx, attempts[i]);
      }
      if exists i :: 0 <= i < |r.outcomes| && (r.outcomes[i].AlreadyExists? || r.outcomes[i].Committed?)
                     && AttemptPath(w.ctx, attempts[i]) == x {
        var i :| 0 <= i < |r.outcomes| && (r.outcomes[i].AlreadyExists? || r.outcomes[i].Committed?)
                  && AttemptPath(w.ctx, attempts[i]) == x;
        assert r.outcomes[i].Path() == AttemptPath(w.ctx, attempts[i]);
      }
    }
  }

  /** The paths of a sequence of outcomes. */
  function Paths(outcomes: seq<Outcome>): (r: seq<string>)
    ensures |r| == |outcomes|
    ensures forall i :: 0 <= i < |r| ==> r[i] == outcomes[i].Path()
  {
    seq(|outcomes|, i requires 0 <= i < |outcomes| => outcomes[i].Path())
  }

  lemma {:induction false} AllContribute(outcomes: seq<Outcome>)
    requires forall i :: 0 <= i < |outcomes| ==> outcomes[i].Contributes()
    ensures Contributions(outcomes) == Paths(outcomes)
  {
    if |outcomes| > 0 {
      var init := outcomes[..|outcomes| - 1];
      AllContribute(init);
      assert Paths(outcomes) == Paths(init) + [outcomes[|outcomes| - 1].Path()];
    }
  }

  /** Running the generator again over the directories a completed run left,
      when every attempt of that run found or committed its member, finds
      every member, creates and commits nothing, and produces the same
      ensemble list. */
  lemma RerunChangesNothing(w: World, attempts: seq<Attempt>)
    requires !Generate(w, attempts).aborted
    requires forall i :: 0 <= i < |Generate(w, attempts).outcomes| ==> Generate(w, attempts).outcomes[i].Contributes()
    ensures var r := Generate(w, attempts);
      var again := Generate(w.(existing := r.present), attempts);
      && !again.aborted
      && (forall i :: 0 <= i < |again.outcomes| ==> again.outcomes[i].AlreadyExists?)
      && again.present == r.present
      && again.ensemble == r.ensemble
  {
    var r := Generate(w, attempts);
    var w2 := w.(existing := r.present);
    RunInvariants(Decision(w), w.existing, attempts, |attempts|);
    RunPaths(w, attempts);
    forall i | 0 <= i < |attempts| ensures AttemptPath(w.ctx, attempts[i]) in r.present {
      var p := AttemptPath(w.ctx, attempts[i]);
      assert r.outcomes[i].Path() == p;
      if r.outcomes[i].Committed? {
        assert p in LeftBehind(r.outcomes);
      } else {
        AlreadyExistsIff(w, attempts, i);
        if p !in w.existing {
          var j :| 0 <= j < i && r.outcomes[j].LeavesDirectory() && r.outcomes[j].Path() == p;
          assert p in LeftBehind(r.outcomes);
        }
      }
    }
    DecisionFindsExisting(w2);
    AllFound(Decision(w2), w2.existing, PathOf(w2.ctx), attempts, |attempts|);
    var again := Generate(w2, attempts);
    RunInvariants(Decision(w2), w2.existing, attempts, |attempts|);
    RunPaths(w2, attempts);
    AllContribute(r.outcomes);
    AllContribute(again.outcomes);
    assert Paths(again.outcomes) == Paths(r.outcomes);
  }
}

=== FILE: lines.dfy ===
/** Line-prefixed rewriting of a text file, as done for `SYNCDIR=` in
    `sync_data.sh` and for `jobname:` in `config.yaml`. A file is its sequence
    of lines as Python iterates them: each line keeps its trailing `"\n"`. */
module Lines {
  import opened Text
  import opened Paths

  /** Streams `lines`, replacing every line that starts with `prefix` by
      `build(line)` and copying every other line verbatim. */
  function RewriteLines(lines: seq<string>, prefix: string, build: string -> string): (r: seq<string>)
    ensures |r| == |lines|
    ensures forall k :: 0 <= k < |lines| && StartsWith(lines[k], prefix) ==> r[k] == build(lines[k])
    ensures forall k :: 0 <= k < |lines| && !StartsWith(lines[k], prefix) ==> r[k] == lines[k]
  {
    if |lines| == 0 then []
    else
      var head := if StartsWith(lines[0], prefix) then build(lines[0]) else lines[0];
      [head] + RewriteLines(lines[1..], prefix, build)
  }

  /** If every replacement line still carries the prefix and rebuilding it is a
      no-op, rewriting an already rewritten file changes nothing. */
  lemma {:induction false} RewriteIdempotent(lines: seq<string>, prefix: string, build: string -> string)
    requires forall l :: StartsWith(l, prefix) ==> StartsWith(build(l), prefix) && build(build(l)) == build(l)
    ensures RewriteLines(RewriteLines(lines, prefix, build), prefix, build) == RewriteLines(lines, prefix, build)
  {
    if |lines| > 0 {
      var once := RewriteLines(lines, prefix, build);
      assert once[1..] == RewriteLines(lines[1..], prefix, build);
      RewriteIdempotent(lines[1..], prefix, build);
    }
  }

  /** Index of the last line that starts with `prefix`, if any. */
  function LastMatch(lines: seq<string>, prefix: string): (r: Option<nat>)
    ensures r.None? <==> forall k :: 0 <= k < |lines| ==> !StartsWith(lines[k], prefix)
    ensures r.Some? ==> r.value < |lines| && StartsWith(lines[r.value], prefix)
    ensures r.Some? ==> forall k :: r.value < k < |lines| ==> !StartsWith(lines[k], prefix)
  {
    if |lines| == 0 then None
    else if StartsWith(lines[|lines| - 1], prefix) then Some(|lines| - 1)
    else LastMatch(lines[..|lines| - 1], prefix)
  }

  /** The text after `prefix` on a line that starts with it. */
  function After(line: string, prefix: string): (r: string)
    ensures StartsWith(line, prefix) ==> line == prefix + r
  {
    if |prefix| <= |line| then line[|prefix|..] else ""
  }

  /* ---------------------------------------------------------------------
     SYNCDIR= in sync_data.sh
     --------------------------------------------------------------------- */

  const SyncPrefix: string := "SYNCDIR="

  /** The sync destination written for a variant: the directory part of the
      old value (whose last component, trailing newline included, is dropped)
      joined with the variant's directory name. */
  function SyncDirFor(line: string, expName: string): string
  {
    PathJoin(Dirname(After(line, SyncPrefix)), expName)
  }

  function SyncLine(line: string, expName: string): (r: string)
    ensures StartsWith(r, SyncPrefix) && EndsWith(r, "\n")
  {
    SyncPrefix + SyncDirFor(line, expName) + "\n"
  }

  function SyncBuilder(expName: string): string -> string
  {
    line => SyncLine(line, expName)
  }

  function RewriteSyncScript(lines: seq<string>, expName: string): seq<string>
  {
    RewriteLines(lines, SyncPrefix, SyncBuilder(expName))
  }

  /** The script's own sync destination, as `ensemble.py` leaves it in
      `syncdir` after the loop: the value computed on the last `SYNCDIR=`
      line, or nothing when the script has none, in which case an earlier
      variant's value is used. */
  function ScriptSyncDir(lines: seq<string>, expName: string): Option<string>
  {
    match LastMatch(lines, SyncPrefix)
    case None => None
    case Some(k) => Some(SyncDirFor(lines[k], expName))
  }

  /** The script's own destination is exactly the value written on the last
      `SYNCDIR=` line of the rewritten script, and it keeps the old parent
      directory while ending in the variant's name. */
  lemma SyncDirIsLastWritten(lines: seq<string>, expName: string)
    requires expName != "" && '/' !in expName
    ensures ScriptSyncDir(lines, expName).Some? <==> exists k :: 0 <= k < |lines| && StartsWith(lines[k], SyncPrefix)
    ensures ScriptSyncDir(lines, expName).Some? ==>
      var k := LastMatch(lines, SyncPrefix).value;
      var d := ScriptSyncDir(lines, expName).value;
      && RewriteSyncScript(lines, expName)[k] == SyncPrefix + d + "\n"
      && Basename(d) == expName
      && Dirname(d) == Dirname(After(lines[k], SyncPrefix))
  {
    if LastMatch(lines, SyncPrefix).Some? {
      var k := LastMatch(lines, SyncPrefix).value;
      DirnameOfJoin(After(lines[k], SyncPrefix), expName);
    }
  }

  /** A rewritten `SYNCDIR=` line is a fixed point of the rewrite. */
  lemma SyncLineIdempotent(line: string, expName: string)
    requires expName != "" && '/' !in expName
    ensures SyncLine(SyncLine(line, expName), expName) == SyncLine(line, expName)
  {
    var d := SyncDirFor(line, expName);
    var l1 := SyncLine(line, expName);
    assert After(l1, SyncPrefix) == d + "\n";
    DirnameIgnoresLastChar(d, '\n');
    DirnameOfJoin(After(line, SyncPrefix), expName);
  }

  /** Running the `SYNCDIR=` rewrite on its own output changes nothing. */
  lemma SyncRewriteIdempotent(lines: seq<string>, expName: string)
    requires expName != "" && '/' !in expName
    ensures RewriteSyncScript(RewriteSyncScript(lines, expName), expName) == RewriteSyncScript(lines, expName)
  {
    forall l | StartsWith(l, SyncPrefix)
      ensures StartsWith(SyncBuilder(expName)(l), SyncPrefix)
      ensures SyncBuilder(expName)(SyncBuilder(expName)(l)) == SyncBuilder(expName)(l)
    {
      SyncLineIdempotent(l, expName);
    }
    RewriteIdempotent(lines, SyncPrefix, SyncBuilder(expName));
  }

  /* ---------------------------------------------------------------------
     jobname: in config.yaml
     --------------------------------------------------------------------- */

  const JobPrefix: string := "jobname:"

  /** The job name line for a perturbation `name` set to the value rendered
      as `valueText`: `'jobname: ' + '_'.join([name, str(v)]) + '\n'`. */
  function JobLine(name: string, valueText: string): (r: string)
    ensures r == "jobname: " + name + "_" + valueText + "\n"
  {
    JoinTwo(name, valueText, "_");
    "jobname: " + Join([name, valueText], "_") + "\n"
  }

  function RewriteConfig(lines: seq<string>, name: string, valueText: string): seq<string>
  {
    RewriteLines(lines, JobPrefix, _ => JobLine(name, valueText))
  }

  /** Every `jobname:` line, and only those, becomes the variant's job line;
      rewriting twice is the same as rewriting once. */
  lemma ConfigRewrite(lines: seq<string>, name: string, valueText: string)
    ensures |RewriteConfig(lines, name, valueText)| == |lines|
    ensures forall k :: 0 <= k < |lines| ==>
      RewriteConfig(lines, name, valueText)[k] ==
        if StartsWith(lines[k], JobPrefix) then "jobname: " + name + "_" + valueText + "\n" else lines[k]
    ensures RewriteConfig(RewriteConfig(lines, name, valueText), name, valueText) == RewriteConfig(lines, name, valueText)
  {
    var line := JobLine(name, valueText);
    assert StartsWith(line, JobPrefix) by { assert line[..|JobPrefix|] == JobPrefix; }
    RewriteIdempotent(lines, JobPrefix, _ => JobLine(name, valueText));
  }
}

=== FILE: metadata.dfy ===
/** The amendment of a member's `metadata.yaml` record: the description gains
    a fixed perturbation note naming the control run, the start state and the
    changed parameter; the keywords gain the perturbation tags. */
module Metadata {
  import opened Text
  import opened Naming

  /** The fields of `metadata.yaml` that are read and rewritten; `notes` may
      be left empty in the file, which YAML reads as null. */
  datatype Record = Record(description: string, notes: Option<string>, keywords: seq<string>)

  /** One perturbed namelist entry: file, group, entry name and `str()` of the value. */
  datatype Perturbation = Perturbation(file: string, group: string, name: string, valueText: string)
  {
    predicate TurningAngle() {
      IsTurningAngle(file, group, name)
    }
  }

  const NoteLine: string := "NOTE: this is a perturbation " + "experiment, but the description " + "above is for the control run."
  const BasedOnPrefix: string := "This perturbation experiment " + "is based on the control run "
  const RestLine: string := "but with condition of rest"
  const InitialConditionPrefix: string := "but with initial condition "

  /** The line naming the start state: rest, or the template's restart directory. */
  function StartLine(startFrom: string, restartPath: string): string
  {
    if startFrom == Rest then RestLine else InitialConditionPrefix + restartPath
  }

  /** The line naming the changed parameter; the turning angle is described
      through the `cosw` and `sinw` pair it sets. */
  function ChangeLine(p: Perturbation): string
  {
    if p.TurningAngle() then
      "and " + Join([p.file, p.group, "cosw and sinw"], " -> ") + " changed to give a turning angle of " + p.valueText + " degrees."
    else
      "and " + Join([p.file, p.group, p.name], " -> ") + " changed to " + p.valueText
  }

  /** `text + "\n" + line`: one more line at the end of a text. */
  function AddLine(text: string, line: string): (r: string)
    ensures StartsWith(r, text)
    ensures |r| == |text| + 1 + |line|
  {
    text + "\n" + line
  }

  /** The description followed by the four lines of the perturbation note. */
  function AmendDescription(desc: string, templatePath: string, startFrom: string, restartPath: string, p: Perturbation): (r: string)
  {
    AddLine(AddLine(AddLine(AddLine(desc, NoteLine), BasedOnPrefix + templatePath),
                    StartLine(startFrom, restartPath)), ChangeLine(p))
  }

  /** Appending lines keeps the original description as a prefix. */
  lemma AmendKeepsDescription(desc: string, templatePath: string, startFrom: string, restartPath: string, p: Perturbation)
    ensures StartsWith(AmendDescription(desc, templatePath, startFrom, restartPath, p), desc)
  {
    var t1 := AddLine(desc, NoteLine);
    var t2 := AddLine(t1, BasedOnPrefix + templatePath);
    var t3 := AddLine(t2, StartLine(startFrom, restartPath));
    var t4 := AddLine(t3, ChangeLine(p));
    assert t4[..|desc|] == t3[..|t2|][..|t1|][..|desc|];
  }

  /** Keywords appended, in order. */
  function AddedKeywords(p: Perturbation): seq<string>
  {
    ["perturbation", p.name] + (if p.TurningAngle() then ["cosw", "sinw"] else [])
  }

  /** The tags come after the original keywords, in a fixed order. */
  lemma KeywordsAppended(keywords: seq<string>, p: Perturbation)
    ensures var k := keywords + AddedKeywords(p);
      && |k| == |keywords| + (if p.TurningAngle() then 4 else 2)
      && k[..|keywords|] == keywords
      && k[|keywords|] == "perturbation" && k[|keywords| + 1] == p.name
      && (p.TurningAngle() ==> k[|keywords| + 2..] == ["cosw", "sinw"])
  {
    var k := keywords + AddedKeywords(p);
    assert k[..|keywords|] == keywords;
    if p.TurningAngle() {
      assert k[|keywords| + 2..] == AddedKeywords(p)[2..];
    }
  }

  /** The notes as written back: `str()` of the value read, so a null
      becomes the text `None`. */
  function NotesText(notes: Option<string>): string
  {
    if notes.Some? then notes.value else "None"
  }

  /** The amended record: description extended, notes carried over as text,
      keywords extended in a fixed order with the original list kept as a
      prefix. */
  function Amend(m: Record, templatePath: string, startFrom: string, restartPath: string, p: Perturbation): (r: Record)
    ensures StartsWith(r.description, m.description)
    ensures r.notes.Some?
    ensures m.notes.Some? ==> r.notes == m.notes
    ensures m.notes.None? ==> r.notes == Some("None")
    ensures |r.keywords| == |m.keywords| + (if p.TurningAngle() then 4 else 2)
    ensures r.keywords[..|m.keywords|] == m.keywords
    ensures r.keywords[|m.keywords|] == "perturbation" && r.keywords[|m.keywords| + 1] == p.name
    ensures p.TurningAngle() ==> r.keywords[|m.keywords| + 2..] == ["cosw", "sinw"]
  {
    AmendKeepsDescription(m.description, templatePath, startFrom, restartPath, p);
    KeywordsAppended(m.keywords, p);
    Record(AmendDescription(m.description, templatePath, startFrom, restartPath, p),
           Some(NotesText(m.notes)),
           m.keywords + AddedKeywords(p))
  }

  /* ---------------------------------------------------------------------
     The description, line by line
     --------------------------------------------------------------------- */

  /** The lines of a text, as `text.split('\n')`. */
  function SplitLines(text: string): seq<string>
  {
    Split(text, "\n")
  }

  lemma SingleLine(x: string)
    requires '\n' !in x
    ensures SplitLines(x) == [x]
  {
    ContainsChar(x, '\n');
    SplitWithout(x, "\n");
  }

  /** Neither long fixed line contains a newline, shown piece by piece. */
  lemma NoNewlineInNoteStart() ensures '\n' !in "NOTE: this is a perturbation " {}
  lemma NoNewlineInNoteMiddle() ensures '\n' !in "experiment, but the description " {}
  lemma NoNewlineInNoteEnd() ensures '\n' !in "above is for the control run." {}
  lemma NoNewlineInBasedOnStart() ensures '\n' !in "This perturbation experiment " {}
  lemma NoNewlineInBasedOnEnd() ensures '\n' !in "is based on the control run " {}

  lemma NoNewlineInNote()
    ensures '\n' !in NoteLine && '\n' !in BasedOnPrefix
  {
    NoNewlineInNoteStart();
    NoNewlineInNoteMiddle();
    NoNewlineInNoteEnd();
    NoNewlineInBasedOnStart();
    NoNewlineInBasedOnEnd();
  }

  lemma NoNewlineInStartLine(startFrom: string, restartPath: string)
    requires '\n' !in restartPath
    ensures '\n' !in StartLine(startFrom, restartPath)
  {
    assert '\n' !in RestLine;
    assert '\n' !in InitialConditionPrefix;
  }

  lemma NoNewlineInChangeLine(p: Perturbation)
    requires '\n' !in p.file && '\n' !in p.group && '\n' !in p.name && '\n' !in p.valueText
    ensures '\n' !in ChangeLine(p)
  {
    JoinThree(p.file, p.group, "cosw and sinw", " -> ");
    JoinThree(p.file, p.group, p.name, " -> ");
    assert '\n' !in "and ";
    assert '\n' !in " -> ";
    assert '\n' !in "cosw and sinw";
    assert '\n' !in " changed to give a turning angle of ";
    assert '\n' !in " degrees.";
    assert '\n' !in " changed to ";
  }

  /** A line without a newline character adds exactly one entry to the split. */
  lemma AddLineSplits(text: string, line: string)
    requires '\n' !in line
    ensures SplitLines(AddLine(text, line)) == SplitLines(text) + [line]
  {
    SplitAround(text, line, "\n");
    SingleLine(line);
  }

  /** With no newline inside the inserted names and paths, the amended
      description is the original description followed by exactly four new
      lines: the note, the control run, the start state, the changed parameter. */
  lemma DescriptionLines(desc: string, templatePath: string, startFrom: string, restartPath: string, p: Perturbation)
    requires '\n' !in templatePath && '\n' !in restartPath
    requires '\n' !in p.file && '\n' !in p.group && '\n' !in p.name && '\n' !in p.valueText
    ensures SplitLines(AmendDescription(desc, templatePath, startFrom, restartPath, p))
         == SplitLines(desc) + [NoteLine, BasedOnPrefix + templatePath, StartLine(startFrom, restartPath), ChangeLine(p)]
  {
    var l1 := NoteLine;
    var l2 := BasedOnPrefix + templatePath;
    var l3 := StartLine(startFrom, restartPath);
    var l4 := ChangeLine(p);
    NoNewlineInNote();
    NoNewlineInStartLine(startFrom, restartPath);
    NoNewlineInChangeLine(p);
    var t1 := AddLine(desc, l1);
    var t2 := AddLine(t1, l2);
    var t3 := AddLine(t2, l3);
    AddLineSplits(desc, l1);
    AddLineSplits(t1, l2);
    AddLineSplits(t2, l3);
    AddLineSplits(t3, l4);
    var d := SplitLines(desc);
    assert d + [l1] + [l2] + [l3] + [l4] == d + [l1, l2, l3, l4];
  }

  /** The start-state line says "condition of rest" exactly when the member
      starts from rest, and otherwise names the restart directory. */
  lemma StartLineRecordsStart(startFrom: string, restartPath: string)
    ensures StartLine(startFrom, restartPath) == RestLine <==> startFrom == Rest
    ensures startFrom != Rest ==> StartLine(startFrom, restartPath) == InitialConditionPrefix + restartPath
  {
    if startFrom != Rest {
      var l := InitialConditionPrefix + restartPath;
      assert l[9] == 'i' && RestLine[9] == 'c';
    }
  }

  /** The third new line of the amended description records the start state. */
  lemma DescriptionRecordsStart(desc: string, templatePath: string, startFrom: string, restartPath: string, p: Perturbation)
    requires '\n' !in templatePath && '\n' !in restartPath
    requires '\n' !in p.file && '\n' !in p.group && '\n' !in p.name && '\n' !in p.valueText
    ensures var lines := SplitLines(AmendDescription(desc, templatePath, startFrom, restartPath, p));
      && |lines| == |SplitLines(desc)| + 4
      && (lines[|SplitLines(desc)| + 2] == RestLine <==> startFrom == Rest)
      && (startFrom != Rest ==> lines[|SplitLines(desc)| + 2] == InitialConditionPrefix + restartPath)
  {
    DescriptionLines(desc, templatePath, startFrom, restartPath, p);
    StartLineRecordsStart(startFrom, restartPath);
  }
}

=== FILE: naming.dfy ===
/** Names and paths derived for one ensemble member: the start-from token,
    the variant directory name, the compound turning-angle axis, the archive
    path inferred from the work path, and the restart sources in the template. */
module Naming {
  import opened Text
  import opened Paths

  /** A scalar read from the ensemble specification. Integers are rendered by
      `str()` in decimal; any other scalar (float, bool, string) is represented
      by the text `str()` gives for it. */
  datatype Scalar = Int(i: int) | Rendered(text: string)

  function Str(v: Scalar): string
  {
    match v
    case Int(i) => IntToString(i)
    case Rendered(t) => t
  }

  /* ---------------------------------------------------------------------
     Start-from token: str(startfrom).strip().lower().zfill(3)
     --------------------------------------------------------------------- */

  /** The sentinel that means "start from rest": no restart linkage. */
  const Rest: string := "rest"

  const CycleWidth: nat := 3

  /** The shape of a normalised token: at least three characters, no
      upper-case letter, no whitespace at either end. */
  predicate TokenShaped(r: string)
  {
    && |r| >= CycleWidth
    && (forall k :: 0 <= k < |r| ==> !IsUpper(r[k]))
    && !IsSpace(r[0]) && !IsSpace(r[|r| - 1])
  }

  function NormaliseStartFrom(v: Scalar): (r: string)
    ensures TokenShaped(r)
  {
    var u := Strip(Str(v));
    var t := Lower(u);
    LowerKeepsEnds(u);
    StartFromShape(t);
    ZFill(t, CycleWidth)
  }

  /** Lower-casing maps only upper-case letters, never to whitespace. */
  lemma LowerCharKeepsNonSpace(c: char)
    requires !IsSpace(c)
    ensures !IsSpace(LowerChar(c))
  {
  }

  /** Lower-casing keeps text without whitespace at its ends so. */
  lemma LowerKeepsEnds(u: string)
    requires |u| > 0 ==> !IsSpace(u[0]) && !IsSpace(u[|u| - 1])
    ensures |Lower(u)| > 0 ==> !IsSpace(Lower(u)[0]) && !IsSpace(Lower(u)[|Lower(u)| - 1])
  {
    if |u| > 0 {
      LowerCharKeepsNonSpace(u[0]);
      LowerCharKeepsNonSpace(u[|u| - 1]);
    }
  }

  lemma StartFromShape(t: string)
    requires |t| > 0 ==> !IsSpace(t[0]) && !IsSpace(t[|t| - 1])
    requires forall k :: 0 <= k < |t| ==> !IsUpper(t[k])
    ensures TokenShaped(ZFill(t, CycleWidth))
  {
    ZFillProperties(t, CycleWidth);
    ZFillPreserves(t, CycleWidth, c => !IsUpper(c));
    ZFillEnds(t, CycleWidth);
  }

  lemma StripOfTrimmed(s: string)
    requires |s| > 0 && !IsSpace(s[0]) && !IsSpace(s[|s| - 1])
    ensures Strip(s) == s
  {
    var r := Strip(s);
    var i, j :| 0 <= i <= j <= |s| && r == s[i..j]
      && (forall k :: 0 <= k < i ==> IsSpace(s[k]))
      && (forall k :: j <= k < |s| ==> IsSpace(s[k]));
    assert i == 0 && j == |s|;
  }

  lemma LowerOfLower(s: string)
    requires forall k :: 0 <= k < |s| ==> !IsUpper(s[k])
    ensures Lower(s) == s
  {
  }

  /** The normalised token is `"rest"` exactly when the stripped, lower-cased
      text is `"rest"`: any other text is at least three characters long and
      differs from it. */
  lemma StartFromRest(v: Scalar)
    ensures NormaliseStartFrom(v) == Rest <==> Lower(Strip(Str(v))) == Rest
  {
    var t := Lower(Strip(Str(v)));
    ZFillProperties(t, CycleWidth);
  }

  /** Normalising an already normalised token changes nothing. */
  lemma StartFromIdempotent(v: Scalar)
    ensures NormaliseStartFrom(Rendered(NormaliseStartFrom(v))) == NormaliseStartFrom(v)
  {
    NormaliseTrimmed(NormaliseStartFrom(v));
  }

  /** Text of the shape normalisation produces is its own normal form. */
  lemma NormaliseTrimmed(r: string)
    requires TokenShaped(r)
    ensures NormaliseStartFrom(Rendered(r)) == r
  {
    StripOfTrimmed(r);
    LowerOfLower(r);
    ZFillProperties(r, CycleWidth);
  }

  lemma DigitsAreTrimmed(s: string)
    requires |s| > 0 && AllDigits(s)
    ensures Strip(s) == s && Lower(Strip(s)) == s
  {
    assert IsDigit(s[0]) && IsDigit(s[|s| - 1]);
    StripOfTrimmed(s);
    LowerOfLower(s);
  }

  lemma ShortNumbers(n: nat)
    ensures n < 1000 ==> |NatToString(n)| <= CycleWidth
  {
    if 10 <= n < 1000 {
      var a := n / 10;
      assert a < 100;
      assert |NatToString(n)| == |NatToString(a)| + 1;
      if a >= 10 {
        assert a / 10 < 10;
        assert |NatToString(a)| == |NatToString(a / 10)| + 1;
      }
    }
  }

  lemma LongNumbers(n: nat)
    ensures n >= 1000 ==> |NatToString(n)| > CycleWidth
  {
    if n >= 1000 {
      var a := n / 10;
      assert a >= 100;
      var b := a / 10;
      assert b >= 10;
      assert |NatToString(n)| == |NatToString(a)| + 1;
      assert |NatToString(a)| == |NatToString(b)| + 1;
      assert |NatToString(b)| == |NatToString(b / 10)| + 1;
    }
  }

  lemma StartFromOfInt(n: nat)
    ensures NormaliseStartFrom(Int(n)) == ZFill(NatToString(n), CycleWidth)
  {
    var s := NatToString(n);
    assert Str(Int(n)) == s;
    DigitsAreTrimmed(s);
  }

  /** An integer cycle index below 1000 becomes exactly three digits that
      still denote the same cycle; a larger one is its plain decimal text. */
  lemma StartFromCycle(n: nat)
    ensures n < 1000 ==> |NormaliseStartFrom(Int(n))| == CycleWidth
    ensures AllDigits(NormaliseStartFrom(Int(n))) && DigitsValue(NormaliseStartFrom(Int(n))) == n
    ensures n >= 1000 ==> NormaliseStartFrom(Int(n)) == NatToString(n)
    ensures NormaliseStartFrom(Int(n)) != Rest
  {
    var s := NatToString(n);
    StartFromOfInt(n);
    ShortNumbers(n);
    LongNumbers(n);
    ZFillProperties(s, CycleWidth);
    var r := ZFill(s, CycleWidth);
    assert IsDigit(r[0]);
    assert r[0] != Rest[0];
  }

  /* ---------------------------------------------------------------------
     Variant names
     --------------------------------------------------------------------- */

  /** `'_'.join([template, name, str(v)])`. */
  function VariantName(template: string, name: string, valueText: string): (r: string)
    ensures r == template + "_" + name + "_" + valueText
  {
    JoinThree(template, name, valueText, "_");
    Join([template, name, valueText], "_")
  }

  /** The member's absolute path: the variant name joined onto the working directory. */
  function VariantPath(cwd: string, template: string, name: string, valueText: string): string
  {
    PathJoin(cwd, VariantName(template, name, valueText))
  }

  /** The member's directory name, which is also its branch name. */
  function ExpName(cwd: string, template: string, name: string, valueText: string): string
  {
    Basename(VariantPath(cwd, template, name, valueText))
  }

  /** The directory name does not depend on the working directory, extends
      the template's own directory name, and is the whole variant name when
      the template is a plain directory name. */
  lemma ExpNameShape(cwd: string, template: string, name: string, valueText: string)
    requires '/' !in name && '/' !in valueText
    ensures ExpName(cwd, template, name, valueText) == Basename(template) + "_" + name + "_" + valueText
    ensures ExpName(cwd, template, name, valueText) != ""
    ensures '/' !in ExpName(cwd, template, name, valueText)
    ensures '/' !in template ==> ExpName(cwd, template, name, valueText) == VariantName(template, name, valueText)
  {
    var v := VariantName(template, name, valueText);
    var tail := "_" + name + "_" + valueText;
    assert v == template + tail;
    assert Basename(template) + "_" + name + "_" + valueText == Basename(template) + tail;
    assert '/' !in tail;
    BasenameAppend(template, tail);
    assert Basename(v) == Basename(template) + tail;
    BasenameOfJoin(cwd, v);
    assert ExpName(cwd, template, name, valueText) == Basename(PathJoin(cwd, v));
    if '/' !in template {
      NoSlashNoTail(template);
    }
  }

  /* ---------------------------------------------------------------------
     The compound turning-angle axis
     --------------------------------------------------------------------- */

  const TurningAngleFile: string := "ice/cice_in.nml"
  const TurningAngleGroup: string := "dynamics_nml"
  const TurningAngleName: string := "turning_angle"

  /** `[fname, group, name] == ['ice/cice_in.nml', 'dynamics_nml', 'turning_angle']`. */
  function IsTurningAngle(file: string, group: string, name: string): (b: bool)
    ensures b <==> file == TurningAngleFile && group == TurningAngleGroup && name == TurningAngleName
  {
    var given := [file, group, name];
    var wanted := [TurningAngleFile, TurningAngleGroup, TurningAngleName];
    assert given == wanted ==> given[0] == wanted[0] && given[1] == wanted[1] && given[2] == wanted[2];
    given == wanted
  }

  /** The namelist entries patched, in patch order: the turning angle sets
      `cosw` and then `sinw`, always both, and never the entry it is listed
      under; any other axis sets its own name and nothing else. */
  function PatchedKeys(file: string, group: string, name: string): (r: seq<string>)
    ensures |r| == 2 <==> file == TurningAngleFile && group == TurningAngleGroup && name == TurningAngleName
    ensures |r| == 2 ==> r == ["cosw", "sinw"]
    ensures name in r <==> |r| == 1
    ensures |r| == 1 ==> r == [name]
    ensures |r| == 1 || |r| == 2
  {
    if IsTurningAngle(file, group, name) then ["cosw", "sinw"] else [name]
  }

  /* ---------------------------------------------------------------------
     Archive and restart paths
     --------------------------------------------------------------------- */

  const WorkSegment: string := "/work/"
  const ArchiveSegment: string := "/archive/"

  /** `workpath.replace('/work/', '/archive/')`. */
  function ArchivePath(workPath: string): string
  {
    ReplaceAll(workPath, WorkSegment, ArchiveSegment)
  }

  /** The archive path is the work path with every `/work/` separator
      (leftmost, non-overlapping) turned into `/archive/`; a work path without
      one comes back unchanged, and one with it always changes. */
  lemma ArchivePathInference(workPath: string)
    ensures ArchivePath(workPath) == Join(Split(workPath, WorkSegment), ArchiveSegment)
    ensures ArchivePath(workPath) == workPath <==> !Contains(workPath, WorkSegment)
  {
    ReplaceIsJoinOfSplit(workPath, WorkSegment, ArchiveSegment);
    ReplaceChangesIffContains(workPath, WorkSegment, ArchiveSegment);
  }

  /** `os.path.join('archive', 'restart' + startfrom)`, relative to an experiment. */
  function RestartDir(startFrom: string): string
  {
    PathJoin("archive", "restart" + startFrom)
  }

  /** The template's restart directory, before symbolic links are resolved. */
  function RestartSource(template: string, startFrom: string): string
  {
    PathJoin(template, RestartDir(startFrom))
  }

  /** `os.path.join('archive', 'output' + startfrom, 'ice')`. */
  function IceDir(startFrom: string): string
  {
    PathJoin(PathJoin("archive", "output" + startFrom), "ice")
  }

  const IceNamelist: string := "cice_in.nml"

  /** The template's ice namelist for the start-from cycle, which is copied
      into the member's archive. */
  function IceNamelistSource(template: string, startFrom: string): string
  {
    PathJoin(PathJoin(template, IceDir(startFrom)), IceNamelist)
  }

  lemma RestartDirShape(startFrom: string)
    ensures RestartDir(startFrom) == "archive/restart" + startFrom
  {
    var r := "restart" + startFrom;
    JoinRelative("archive", r);
    assert "archive" + "/" + r == "archive/restart" + startFrom;
  }

  lemma IceDirShape(startFrom: string)
    requires startFrom == "" || startFrom[|startFrom| - 1] != '/'
    ensures IceDir(startFrom) == "archive/output" + startFrom + "/ice"
  {
    var o := "output" + startFrom;
    JoinRelative("archive", o);
    var ao := "archive/output" + startFrom;
    assert "archive" + "/" + o == ao;
    assert ao[|ao| - 1] != '/';
    JoinRelative(ao, "ice");
  }

  /** For a template directory without a trailing slash, the restart source
      is the plain concatenation `template/archive/restart<startfrom>`. */
  lemma RestartSourceShape(template: string, startFrom: string)
    requires template != "" && template[|template| - 1] != '/'
    ensures RestartSource(template, startFrom) == template + "/archive/restart" + startFrom
  {
    RestartDirShape(startFrom);
    var rd := "archive/restart" + startFrom;
    assert rd[0] == 'a';
    JoinRelative(template, rd);
    assert template + "/" + rd == template + "/archive/restart" + startFrom;
  }

  lemma IceConcat(template: string, startFrom: string)
    ensures (template + "/" + ("archive/output" + startFrom + "/ice")) + "/" + IceNamelist
         == template + "/archive/output" + startFrom + "/ice/cice_in.nml"
  {
    var x := template + "/archive/output" + startFrom;
    assert template + "/" + ("archive/output" + startFrom + "/ice") == x + "/ice";
    assert (x + "/ice") + "/" + IceNamelist == x + "/ice/cice_in.nml";
  }

  /** For a template directory without a trailing slash and a token that does
      not end in one, the copied namelist is
      `template/archive/output<startfrom>/ice/cice_in.nml`. */
  lemma IceNamelistSourceShape(template: string, startFrom: string)
    requires template != "" && template[|template| - 1] != '/'
    requires startFrom == "" || startFrom[|startFrom| - 1] != '/'
    ensures IceNamelistSource(template, startFrom) == template + "/archive/output" + startFrom + "/ice/cice_in.nml"
  {
    IceDirShape(startFrom);
    var id := "archive/output" + startFrom + "/ice";
    assert id[0] == 'a';
    JoinRelative(template, id);
    var tid := template + "/" + id;
    assert tid[|tid| - 1] == 'e';
    JoinRelative(tid, IceNamelist);
    IceConcat(template, startFrom);
  }
}

=== FILE: paths.dfy ===
/** POSIX path-string operations with the behaviour of Python's `posixpath`:
    `join`, `basename` and `dirname`. Nothing here touches a filesystem. */
module Paths {
  import opened Text

  /** Index just past the last `/` of `p`, or 0 when there is none
      (Python's `p.rfind('/') + 1`). */
  function TailStart(p: string): (i: nat)
    ensures i <= |p|
    ensures forall k :: i <= k < |p| ==> p[k] != '/'
    ensures i > 0 ==> p[i - 1] == '/'
  {
    if |p| == 0 then 0
    else if p[|p| - 1] == '/' then |p|
    else TailStart(p[..|p| - 1])
  }

  /** `os.path.basename`: the final component, after the last `/`. */
  function Basename(p: string): (r: string)
    ensures '/' !in r
    ensures EndsWith(p, r)
    ensures |r| == |p| - TailStart(p)
  {
    p[TailStart(p)..]
  }

  predicate AllSlashes(s: string) {
    forall k :: 0 <= k < |s| ==> s[k] == '/'
  }

  /** The shapes `dirname` can return: empty, slashes only, or ending in
      something other than a slash. */
  predicate DirShaped(d: string) {
    d == "" || AllSlashes(d) || d[|d| - 1] != '/'
  }

  /** `s.rstrip('/')`. */
  function StripTrailingSlashes(s: string): (r: string)
    ensures StartsWith(s, r)
    ensures forall k :: |r| <= k < |s| ==> s[k] == '/'
    ensures |r| > 0 ==> r[|r| - 1] != '/'
  {
    if |s| == 0 || s[|s| - 1] != '/' then s
    else StripTrailingSlashes(s[..|s| - 1])
  }

  lemma StripKeepsNonSlash(s: string)
    requires !AllSlashes(s)
    ensures StripTrailingSlashes(s) != ""
  {
    var k :| 0 <= k < |s| && s[k] != '/';
    assert k < |StripTrailingSlashes(s)|;
  }

  /** `os.path.dirname`: everything before the final component, with the
      separating slashes removed unless the head consists of slashes only. */
  function Dirname(p: string): (r: string)
    ensures StartsWith(p, r)
    ensures |r| <= TailStart(p)
    ensures forall k :: |r| <= k < TailStart(p) ==> p[k] == '/'
    ensures DirShaped(r)
    ensures r == "" <==> TailStart(p) == 0
  {
    var head := p[..TailStart(p)];
    if head != "" && !AllSlashes(head) then
      StripKeepsNonSlash(head);
      StripTrailingSlashes(head)
    else head
  }

  /** `os.path.join(a, b)`: an absolute `b` replaces `a`; otherwise `b` is
      appended with exactly one `/` unless `a` is empty or already ends in one. */
  function PathJoin(a: string, b: string): string
  {
    if StartsWith(b, "/") then b
    else if a == "" || EndsWith(a, "/") then a + b
    else a + "/" + b
  }

  /** Joining a relative component onto a directory without a trailing
      slash inserts exactly one `/`. */
  lemma JoinRelative(a: string, b: string)
    requires a != "" && a[|a| - 1] != '/'
    requires b != "" && b[0] != '/'
    ensures PathJoin(a, b) == a + "/" + b
  {
    assert !StartsWith(b, "/");
    assert !EndsWith(a, "/");
  }

  lemma {:induction false} TailStartConcat(a: string, b: string)
    ensures TailStart(a + b) == if TailStart(b) > 0 then |a| + TailStart(b) else TailStart(a)
    decreases |b|
  {
    if |b| == 0 {
      assert a + b == a;
    } else if b[|b| - 1] == '/' {
    } else {
      assert (a + b)[..|a + b| - 1] == a + b[..|b| - 1];
      TailStartConcat(a, b[..|b| - 1]);
    }
  }

  lemma NoSlashNoTail(p: string)
    requires '/' !in p
    ensures TailStart(p) == 0 && Basename(p) == p
  {
  }

  /** Appending slash-free text extends the final component. */
  lemma BasenameAppend(a: string, b: string)
    requires '/' !in b
    ensures Basename(a + b) == Basename(a) + b
  {
    NoSlashNoTail(b);
    TailStartConcat(a, b);
    assert (a + b)[TailStart(a)..] == a[TailStart(a)..] + b;
  }

  /** Text ending at a component boundary does not show in the final
      component of what follows it. */
  lemma BasenameAfterBoundary(a: string, b: string)
    requires TailStart(a) == |a|
    ensures Basename(a + b) == Basename(b)
  {
    var t := TailStart(b);
    TailStartConcat(a, b);
    assert TailStart(a + b) == |a| + t;
    DropPrefix(a, b, t);
  }

  lemma DropPrefix(a: string, b: string, i: nat)
    requires i <= |b|
    ensures (a + b)[|a| + i..] == b[i..]
  {
    forall k | 0 <= k < |b| - i ensures (a + b)[|a| + i..][k] == b[i..][k] {
      assert (a + b)[|a| + i + k] == b[i + k];
    }
  }

  /** Joining never changes the final component. */
  lemma BasenameOfJoin(a: string, b: string)
    ensures Basename(PathJoin(a, b)) == Basename(b)
  {
    if StartsWith(b, "/") || a == "" {
      assert PathJoin(a, b) == b;
    } else if EndsWith(a, "/") {
      assert PathJoin(a, b) == a + b;
      assert a[|a| - 1] == '/';
      BasenameAfterBoundary(a, b);
    } else {
      assert PathJoin(a, b) == (a + "/") + b;
      BasenameAfterBoundary(a + "/", b);
    }
  }

  lemma DirnameOfSlashesThen(d: string, e: string)
    requires d != "" && AllSlashes(d) && '/' !in e
    ensures Dirname(d + e) == d
  {
    TailStartConcat(d, e);
    assert TailStart(d) == |d|;
    assert (d + e)[..|d|] == d;
  }

  lemma DirnameOfDirSlash(d: string, e: string)
    requires d != "" && d[|d| - 1] != '/' && '/' !in e
    ensures Dirname(d + "/" + e) == d
  {
    var h := d + "/";
    assert d + "/" + e == h + e;
    TailStartConcat(h, e);
    assert (h + e)[..|h|] == h;
    assert !AllSlashes(h) by { assert h[|d| - 1] != '/'; }
    assert h[..|h| - 1] == d;
  }

  /** Joining a component onto a directory of the shape `dirname` produces
      gives back that directory under `dirname`. */
  lemma DirnameOfJoinShaped(d: string, e: string)
    requires DirShaped(d)
    requires e != "" && '/' !in e
    ensures Dirname(PathJoin(d, e)) == d
  {
    assert !StartsWith(e, "/") by { assert e[0] != '/'; }
    if d == "" {
      assert PathJoin(d, e) == e;
      assert TailStart(e) == 0;
    } else if d[|d| - 1] == '/' {
      assert PathJoin(d, e) == d + e;
      DirnameOfSlashesThen(d, e);
    } else {
      assert PathJoin(d, e) == d + "/" + e;
      DirnameOfDirSlash(d, e);
    }
  }

  lemma JoinComponentIsBasename(d: string, e: string)
    requires '/' !in e
    ensures Basename(PathJoin(d, e)) == e
  {
    BasenameOfJoin(d, e);
    assert TailStart(e) == 0;
  }

  /** Joining a component onto a directory name produced by `dirname` gives a
      path whose own `dirname` is that directory again and whose `basename`
      is the component: the parent is kept, only the last component changes. */
  lemma DirnameOfJoin(p: string, e: string)
    requires e != "" && '/' !in e
    ensures Dirname(PathJoin(Dirname(p), e)) == Dirname(p)
    ensures Basename(PathJoin(Dirname(p), e)) == e
  {
    var d := Dirname(p);
    assert DirShaped(d);
    DirnameOfJoinShaped(d, e);
    JoinComponentIsBasename(d, e);
  }

  /** A trailing character other than `/` belongs to the final component, so
      `dirname` does not see it. */
  lemma DirnameIgnoresLastChar(p: string, c: char)
    requires c != '/'
    ensures Dirname(p + [c]) == Dirname(p)
  {
    TailStartConcat(p, [c]);
    assert (p + [c])[..TailStart(p)] == p[..TailStart(p)];
  }
}

=== FILE: runs.dfy ===
/** Counting the runs each ensemble member has completed and asking for the
    missing ones. A member's completed runs are read off the output
    directories in its archive, less one: a member not starting from rest
    gets `output<startfrom>` when it is set up, which holds no run of its
    own. A new member starting from rest has an empty archive, so it counts
    as having done -1 runs and is asked for `nruns + 1`. */
module Runs {
  import opened Text
  import opened Paths
  import opened Naming
  import opened Variant
  import opened Ensemble

  /** A name matched by the pattern `output[0-9][0-9][0-9]*`. */
  predicate IsOutputDir(name: string) {
    StartsWith(name, "output") && |name| >= 9 && IsDigit(name[6]) && IsDigit(name[7]) && IsDigit(name[8])
  }

  /** How many entries of an archive listing the output pattern matches. */
  function CountOutputs(entries: seq<string>): (n: nat)
    ensures n <= |entries|
    ensures n == 0 <==> forall k :: 0 <= k < |entries| ==> !IsOutputDir(entries[k])
    ensures n == |entries| <==> forall k :: 0 <= k < |entries| ==> IsOutputDir(entries[k])
  {
    if |entries| == 0 then 0
    else
      var init := entries[..|entries| - 1];
      assert forall k :: 0 <= k < |init| ==> init[k] == entries[k];
      CountOutputs(init) + (if IsOutputDir(entries[|entries| - 1]) then 1 else 0)
  }

  /** The count of a listing is the sum of the counts of its parts, so it
      does not depend on how the listing is split. */
  lemma {:induction false} CountOutputsAppend(a: seq<string>, b: seq<string>)
    ensures CountOutputs(a + b) == CountOutputs(a) + CountOutputs(b)
    decreases |b|
  {
    if |b| > 0 {
      var init := b[..|b| - 1];
      assert (a + b)[..|a + b| - 1] == a + init;
      CountOutputsAppend(a, init);
    } else {
      assert a + b == a;
    }
  }

  /** What the reconciliation reports for one member: the runs it asks for and
      the command it runs, or the number of runs already done. */
  datatype Report =
    | Dispatch(path: string, newRuns: int, command: string)
    | AlreadyDone(path: string, doneRuns: int)
  {
    function Path(): string {
      path
    }
  }

  const PayuRunArgs: string := " && payu run -n "
  const TestPrefix: string := "# "

  /** The shell command that runs `n` more times in directory `path`; in test
      mode it is commented out. */
  function RunCommand(path: string, n: int, test: bool): string
  {
    (if test then TestPrefix else "") + "cd " + path + PayuRunArgs + IntToString(n)
  }

  /** The report for one member whose archive lists `entries`. */
  function ReportFor(path: string, nruns: int, entries: seq<string>, test: bool): Report
  {
    var doneRuns := CountOutputs(entries) - 1;
    var newRuns := nruns - doneRuns;
    if newRuns > 0 then Dispatch(path, newRuns, RunCommand(path, newRuns, test))
    else AlreadyDone(path, doneRuns)
  }

  /** The final loop: nothing unless `nruns` is positive; then one report per
      entry of the ensemble list, in order. `listing` gives the names in a
      directory, empty when it does not exist. */
  function Reconcile(nruns: int, ensemble: seq<string>, listing: string -> seq<string>, test: bool): (r: seq<Report>)
    ensures nruns <= 0 ==> r == []
    ensures nruns > 0 ==> |r| == |ensemble|
  {
    if nruns <= 0 then []
    else seq(|ensemble|, i requires 0 <= i < |ensemble| =>
               ReportFor(ensemble[i], nruns, listing(PathJoin(ensemble[i], ArchiveLinkName)), test))
  }

  /* ---------------------------------------------------------------------
     Properties
     --------------------------------------------------------------------- */

  /** A member is asked for more runs exactly when its archive holds no more
      than `nruns` output directories; the runs asked for and the runs done
      add up to `nruns`; otherwise it has done at least `nruns`. */
  lemma ReportCounts(path: string, nruns: int, entries: seq<string>, test: bool)
    ensures var r := ReportFor(path, nruns, entries, test);
      && r.Path() == path
      && (r.Dispatch? <==> CountOutputs(entries) <= nruns)
      && (r.Dispatch? ==> r.newRuns > 0 && r.newRuns + CountOutputs(entries) - 1 == nruns)
      && (r.AlreadyDone? ==> r.doneRuns == CountOutputs(entries) - 1 && r.doneRuns >= nruns)
  {
  }

  /** The command starts with the comment marker exactly in test mode; past
      the marker it changes to the member's directory and asks payu for a run
      count whose decimal digits, at the end of the command, read back as the
      number of new runs. */
  lemma CommandReadsBack(path: string, n: int, test: bool)
    requires n > 0
    ensures var cmd := RunCommand(path, n, test);
      var body := if test then cmd[|TestPrefix|..] else cmd;
      var digits := IntToString(n);
      && (StartsWith(cmd, TestPrefix) <==> test)
      && StartsWith(body, "cd " + path + PayuRunArgs)
      && |body| == |"cd " + path + PayuRunArgs| + |digits|
      && AllDigits(body[|"cd " + path + PayuRunArgs|..])
      && DigitsValue(body[|"cd " + path + PayuRunArgs|..]) == n
  {
    var cmd := RunCommand(path, n, test);
    var head := "cd " + path + PayuRunArgs;
    var digits := IntToString(n);
    var body := head + digits;
    if test {
      assert cmd == TestPrefix + body;
      assert cmd[|TestPrefix|..] == body;
    } else {
      assert cmd == body;
      assert cmd[0] == 'c';
    }
    assert body[|head|..] == digits;
  }

  /** Every member of the list gets a report about its own archive, in list
      order, when `nruns` is positive, and none gets one otherwise. */
  lemma ReconcileReports(nruns: int, ensemble: seq<string>, listing: string -> seq<string>, test: bool)
    ensures var r := Reconcile(nruns, ensemble, listing, test);
      && |r| == (if nruns > 0 then |ensemble| else 0)
      && forall i :: 0 <= i < |r| ==>
           && r[i].Path() == ensemble[i]
           && var count := CountOutputs(listing(PathJoin(ensemble[i], ArchiveLinkName)));
              && (r[i].Dispatch? <==> count <= nruns)
              && (r[i].Dispatch? ==>
                    r[i].newRuns + count - 1 == nruns && r[i].command == RunCommand(ensemble[i], r[i].newRuns, test))
              && (r[i].AlreadyDone? ==> r[i].doneRuns == count - 1 && r[i].doneRuns >= nruns)
  {
    var r := Reconcile(nruns, ensemble, listing, test);
    forall i | 0 <= i < |r|
      ensures r[i] == ReportFor(ensemble[i], nruns, listing(PathJoin(ensemble[i], ArchiveLinkName)), test)
    {
    }
  }

  /* ---------------------------------------------------------------------
     The whole program
     --------------------------------------------------------------------- */

  /** Reconciling the runs of a finished ensemble run; a run that stopped on
      an unbound sync destination raised before any run was dispatched. */
  function ReportRun(run: Run, nruns: int, listing: string -> seq<string>, test: bool): Option<seq<Report>>
  {
    if run.aborted then None else Some(Reconcile(nruns, run.ensemble, listing, test))
  }

  /** What `ensemble.yaml` gives: the template directory, the start state as
      written, the number of runs wanted, and the namelist entries to perturb. */
  datatype Settings = Settings(template: string, startfrom: Scalar, nruns: int, namelists: seq<NamelistFile>)

  /** What the program finds around it: the working directory, symbolic-link
      resolution, the paths that exist before it starts, what it learns about
      each attempt, and the names in a directory (empty when it does not
      exist). */
  datatype Environment = Environment(
    cwd: string,
    realpath: string -> string,
    existing: set<string>,
    observe: Attempt -> Observation,
    listing: string -> seq<string>)

  /** The world the loop runs in: the start state is normalised once, before
      the loop, and every attempt sees that token. */
  function WorldOf(s: Settings, env: Environment): (w: World)
    ensures TokenShaped(w.ctx.startFrom)
    ensures w.ctx.startFrom == Rest <==> Lower(Strip(Str(s.startfrom))) == Rest
    ensures w.ctx.TemplatePath() == PathJoin(env.cwd, s.template)
    ensures w.existing == env.existing && w.observe == env.observe
  {
    StartFromRest(s.startfrom);
    World(Context(env.cwd, s.template, NormaliseStartFrom(s.startfrom), env.realpath), env.existing, env.observe)
  }

  /** Building the ensemble and then reconciling its runs. */
  function Perform(s: Settings, env: Environment, test: bool): Option<seq<Report>>
  {
    ReportRun(Generate(WorldOf(s, env), Attempts(s.namelists)), s.nruns, env.listing, test)
  }

  /** For a run that stops only at its end, and exactly when its last outcome
      is an unbound destination, nothing is reported exactly when some
      outcome is unbound; otherwise one report per ensemble entry, in order. */
  lemma ReportRunReports(run: Run, nruns: int, listing: string -> seq<string>, test: bool)
    requires run.aborted <==> |run.outcomes| > 0 && run.outcomes[|run.outcomes| - 1].SyncDirUnbound?
    requires StopsOnlyAtEnd(run.outcomes)
    ensures var r := ReportRun(run, nruns, listing, test);
      && (r.None? <==> exists i :: 0 <= i < |run.outcomes| && run.outcomes[i].SyncDirUnbound?)
      && (r.None? ==> run.outcomes[|run.outcomes| - 1].SyncDirUnbound?)
      && (r.Some? ==> |r.value| == (if nruns > 0 then |run.ensemble| else 0))
      && (r.Some? ==> forall k :: 0 <= k < |r.value| ==> r.value[k].Path() == run.ensemble[k])
  {
    StopsExactlyOnUnbound(run.outcomes, run.aborted);
    ReconcileReports(nruns, run.ensemble, listing, test);
  }

  /** What is reported about a run over `attempts`: nothing exactly when
      some attempt found no sync destination bound, and then that attempt is
      the last one decided; otherwise every attempt was decided and, when
      `nruns` is positive, there is one report per entry of the ensemble
      list, in its order. */
  predicate ReportsFollow(run: Run, attempts: seq<Attempt>, nruns: int, r: Option<seq<Report>>)
  {
    && (r.None? <==> exists i :: 0 <= i < |run.outcomes| && run.outcomes[i].SyncDirUnbound?)
    && (r.None? ==> |run.outcomes| > 0 && run.outcomes[|run.outcomes| - 1].SyncDirUnbound?)
    && (r.Some? ==> |run.outcomes| == |attempts|)
    && (r.Some? ==> |r.value| == (if nruns > 0 then |run.ensemble| else 0))
    && (r.Some? ==> forall k :: 0 <= k < |r.value| ==> k < |run.ensemble| && r.value[k].Path() == run.ensemble[k])
  }

  /** The program's reports follow the run over the attempts its settings
      list, in the world its settings and environment make. */
  lemma PerformReports(s: Settings, env: Environment, test: bool)
    ensures ReportsFollow(Generate(WorldOf(s, env), Attempts(s.namelists)), Attempts(s.namelists), s.nruns,
                          Perform(s, env, test))
  {
    GenerateReports(WorldOf(s, env), Attempts(s.namelists), s.nruns, env.listing, test);
  }

  /** `PerformReports` for any world and any list of attempts. */
  lemma GenerateReports(w: World, attempts: seq<Attempt>, nruns: int, listing: string -> seq<string>, test: bool)
    ensures ReportsFollow(Generate(w, attempts), attempts, nruns, ReportRun(Generate(w, attempts), nruns, listing, test))
  {
    ReportRunReports(Generate(w, attempts), nruns, listing, test);
  }

  /** A run that stops only at its end, and stops exactly when its last
      outcome is an unbound destination, stops exactly when any outcome is one. */
  lemma StopsExactlyOnUnbound(outcomes: seq<Outcome>, aborted: bool)
    requires aborted <==> |outcomes| > 0 && outcomes[|outcomes| - 1].SyncDirUnbound?
    requires StopsOnlyAtEnd(outcomes)
    ensures aborted <==> exists i :: 0 <= i < |outcomes| && outcomes[i].SyncDirUnbound?
  {
    if exists i :: 0 <= i < |outcomes| && outcomes[i].SyncDirUnbound? {
      var i :| 0 <= i < |outcomes| && outcomes[i].SyncDirUnbound?;
      assert i == |outcomes| - 1;
    }
  }
}

=== FILE: text.dfy ===
/** String operations the ensemble generator relies on, written to behave like
    the corresponding Python `str` methods: `startswith`, `sep.join`,
    `split(sep)`, `replace(old, new)`, `strip()`, `lower()`, `zfill(width)`,
    and `str()` of an integer. */
module Text {

  datatype Option<T> = None | Some(value: T)

  predicate StartsWith(s: string, prefix: string) {
    |prefix| <= |s| && s[..|prefix|] == prefix
  }

  predicate EndsWith(s: string, suffix: string) {
    |suffix| <= |s| && s[|s| - |suffix|..] == suffix
  }

  predicate OccursAt(s: string, pat: string, i: int) {
    0 <= i && i + |pat| <= |s| && s[i..i + |pat|] == pat
  }

  predicate Contains(s: string, pat: string) {
    exists i :: 0 <= i <= |s| && OccursAt(s, pat, i)
  }

  /* ---------------------------------------------------------------------
     sep.join(parts) and s.split(sep)
     --------------------------------------------------------------------- */

  /** Python's `sep.join(parts)`. */
  function Join(parts: seq<string>, sep: string): string
  {
    if |parts| == 0 then ""
    else if |parts| == 1 then parts[0]
    else parts[0] + sep + Join(parts[1..], sep)
  }

  lemma JoinTwo(a: string, b: string, sep: string)
    ensures Join([a, b], sep) == a + sep + b
  {
    assert [a, b][1..] == [b];
  }

  lemma JoinThree(a: string, b: string, c: string, sep: string)
    ensures Join([a, b, c], sep) == a + sep + b + sep + c
  {
    assert [a, b, c][1..] == [b, c];
    JoinTwo(b, c, sep);
  }

  lemma JoinCons(c: char, x: string, rest: seq<string>, sep: string)
    ensures Join([[c] + x] + rest, sep) == [c] + Join([x] + rest, sep)
  {
    var p := [[c] + x] + rest;
    var q := [x] + rest;
    assert p[1..] == rest && q[1..] == rest;
  }

  lemma JoinStartsWithFirst(parts: seq<string>, sep: string)
    requires |parts| >= 1
    ensures StartsWith(Join(parts, sep), parts[0])
  {
  }

  /** Python's `s.split(sep)` for a non-empty separator: the pieces between
      the leftmost non-overlapping occurrences of `sep`. */
  function Split(s: string, sep: string): (r: seq<string>)
    requires |sep| > 0
    ensures |r| >= 1
    decreases |s|
  {
    if |s| < |sep| then
      [s]
    else if s[..|sep|] == sep then
      [""] + Split(s[|sep|..], sep)
    else
      var rest := Split(s[1..], sep);
      [[s[0]] + rest[0]] + rest[1..]
  }

  /** Joining the pieces with the separator gives back the text. */
  lemma {:induction false} SplitJoins(s: string, sep: string)
    requires |sep| > 0
    ensures Join(Split(s, sep), sep) == s
    decreases |s|
  {
    if |s| < |sep| {
    } else if s[..|sep|] == sep {
      SplitJoins(s[|sep|..], sep);
      var rest := Split(s[|sep|..], sep);
      assert ([""] + rest)[1..] == rest;
    } else {
      SplitJoins(s[1..], sep);
      var rest := Split(s[1..], sep);
      JoinCons(s[0], rest[0], rest[1..], sep);
      assert [rest[0]] + rest[1..] == rest;
    }
  }

  /** No piece contains the separator. */
  lemma {:induction false} SplitPiecesFree(s: string, sep: string)
    requires |sep| > 0
    ensures forall k :: 0 <= k < |Split(s, sep)| ==> !Contains(Split(s, sep)[k], sep)
    decreases |s|
  {
    var r := Split(s, sep);
    if |s| < |sep| {
      assert !Contains(s, sep);
    } else if s[..|sep|] == sep {
      SplitPiecesFree(s[|sep|..], sep);
      EmptyContainsNothing(sep);
      var rest := Split(s[|sep|..], sep);
      assert forall k :: 1 <= k < |r| ==> r[k] == rest[k - 1];
    } else {
      SplitPiecesFree(s[1..], sep);
      SplitJoins(s[1..], sep);
      var rest := Split(s[1..], sep);
      assert [rest[0]] + rest[1..] == rest;
      JoinStartsWithFirst(rest, sep);
      NoOccurrenceInFirst(s, sep, rest[0]);
      assert forall k :: 1 <= k < |r| ==> r[k] == rest[k];
    }
  }

  lemma EmptyContainsNothing(sep: string)
    requires |sep| > 0
    ensures !Contains("", sep)
  {
  }

  /** When `s` does not start with `sep`, a piece made of `s[0]` followed by
      a sep-free prefix of `s[1..]` is itself sep-free. */
  lemma NoOccurrenceInFirst(s: string, sep: string, piece: string)
    requires 0 < |sep| <= |s| && s[..|sep|] != sep
    requires StartsWith(s[1..], piece) && !Contains(piece, sep)
    ensures !Contains([s[0]] + piece, sep)
  {
    var first := [s[0]] + piece;
    assert StartsWith(s, first) by { assert s == [s[0]] + s[1..]; }
    forall i | 0 <= i <= |first|
      ensures !OccursAt(first, sep, i)
    {
      if i == 0 {
        if |sep| <= |first| {
          assert first[..|sep|] == s[..|sep|];
        }
      } else if i + |sep| <= |first| {
        assert first[i..i + |sep|] == piece[i - 1..i - 1 + |sep|];
        assert !OccursAt(piece, sep, i - 1);
      }
    }
  }

  lemma SplitWithout(s: string, sep: string)
    requires |sep| > 0
    requires !Contains(s, sep)
    ensures Split(s, sep) == [s]
  {
    var r := Split(s, sep);
    SplitJoins(s, sep);
    if |r| >= 2 {
      assert Join(r, sep) == r[0] + sep + Join(r[1..], sep);
      assert OccursAt(s, sep, |r[0]|);
    }
  }

  /** A string contains `sep` exactly when splitting it yields more than one piece. */
  lemma SplitCountsOccurrence(s: string, sep: string)
    requires |sep| > 0
    ensures Contains(s, sep) <==> |Split(s, sep)| >= 2
  {
    var r := Split(s, sep);
    SplitJoins(s, sep);
    if |r| >= 2 {
      assert Join(r, sep) == r[0] + sep + Join(r[1..], sep);
      assert OccursAt(s, sep, |r[0]|);
    } else {
      SplitPiecesFree(s, sep);
      assert s == r[0];
    }
  }

  lemma ContainsChar(s: string, c: char)
    ensures Contains(s, [c]) <==> c in s
  {
    if c in s {
      var i :| 0 <= i < |s| && s[i] == c;
      assert OccursAt(s, [c], i);
    }
    if Contains(s, [c]) {
      var i :| 0 <= i <= |s| && OccursAt(s, [c], i);
      assert s[i] == s[i..i + 1][0];
    }
  }

  /** One step of `Split` on a text that starts with the separator. */
  lemma SplitAtSep(s: string, sep: string)
    requires |sep| > 0 && StartsWith(s, sep)
    ensures Split(s, sep) == [""] + Split(s[|sep|..], sep)
  {
  }

  /** One step of `Split` on a text that does not start with the separator:
      its first character joins the first piece. */
  lemma SplitPastChar(s: string, sep: string)
    requires |sep| > 0 && |s| >= |sep| && !StartsWith(s, sep)
    ensures var rest := Split(s[1..], sep);
      Split(s, sep) == [[s[0]] + rest[0]] + rest[1..]
  {
  }

  /** The step of `SplitAround` for `a` starting with the separator, given
      the property for the rest of `a`. */
  lemma SplitAroundAtSep(a: string, b: string, sep: string)
    requires |sep| == 1 && |a| > 0 && a[0] == sep[0]
    requires Split(a[1..] + sep + b, sep) == Split(a[1..], sep) + Split(b, sep)
    ensures Split(a + sep + b, sep) == Split(a, sep) + Split(b, sep)
  {
    var s := a + sep + b;
    var A := Split(a[1..], sep);
    var B := Split(b, sep);
    assert Split(a, sep) == [""] + A by {
      assert a[..1] == sep;
      SplitAtSep(a, sep);
    }
    assert Split(s, sep) == [""] + (A + B) by {
      assert s[1..] == a[1..] + sep + b && s[..1] == sep;
      SplitAtSep(s, sep);
    }
    ConsPieces([""], A, B);
  }

  lemma ConsPieces(x: seq<string>, A: seq<string>, B: seq<string>)
    ensures x + (A + B) == (x + A) + B
  {
  }

  /** Extending the first piece commutes with appending further pieces. */
  lemma ConsPiece(c: char, A: seq<string>, B: seq<string>)
    requires |A| >= 1
    ensures [[c] + (A + B)[0]] + (A + B)[1..] == ([[c] + A[0]] + A[1..]) + B
  {
    assert (A + B)[0] == A[0];
    assert (A + B)[1..] == A[1..] + B;
  }

  /** The step of `SplitAround` for `a` starting with another character,
      given the property for the rest of `a`. */
  lemma SplitAroundPastChar(a: string, b: string, sep: string)
    requires |sep| == 1 && |a| > 0 && a[0] != sep[0]
    requires Split(a[1..] + sep + b, sep) == Split(a[1..], sep) + Split(b, sep)
    ensures Split(a + sep + b, sep) == Split(a, sep) + Split(b, sep)
  {
    var s := a + sep + b;
    assert s[1..] == a[1..] + sep + b && s[0] == a[0] && s[..1] != sep && a[..1] != sep;
    SplitPastChar(s, sep);
    SplitPastChar(a, sep);
    ConsPiece(a[0], Split(a[1..], sep), Split(b, sep));
  }

  /** Splitting on a one-character separator distributes over a concatenation
      joined by that separator. */
  lemma {:induction false} SplitAround(a: string, b: string, sep: string)
    requires |sep| == 1
    ensures Split(a + sep + b, sep) == Split(a, sep) + Split(b, sep)
    decreases |a|
  {
    if |a| == 0 {
      var s := a + sep + b;
      assert s[..1] == sep && s[1..] == b;
      SplitAtSep(s, sep);
      assert Split(a, sep) == [""];
    } else {
      SplitAround(a[1..], b, sep);
      if a[0] == sep[0] {
        SplitAroundAtSep(a, b, sep);
      } else {
        SplitAroundPastChar(a, b, sep);
      }
    }
  }

  /* ---------------------------------------------------------------------
     s.replace(old, new)
     --------------------------------------------------------------------- */

  /** Python's `s.replace(old, new)` for a non-empty `old` (here `pat`): scans left to right
      and replaces each non-overlapping occurrence. */
  function ReplaceAll(s: string, pat: string, rep: string): string
    requires |pat| > 0
    decreases |s|
  {
    if |s| < |pat| then s
    else if s[..|pat|] == pat then rep + ReplaceAll(s[|pat|..], pat, rep)
    else [s[0]] + ReplaceAll(s[1..], pat, rep)
  }

  /** `s.replace(old, new) == new.join(s.split(old))`. */
  lemma {:induction false} ReplaceIsJoinOfSplit(s: string, pat: string, rep: string)
    requires |pat| > 0
    ensures ReplaceAll(s, pat, rep) == Join(Split(s, pat), rep)
    decreases |s|
  {
    if |s| < |pat| {
    } else if s[..|pat|] == pat {
      ReplaceIsJoinOfSplit(s[|pat|..], pat, rep);
      var rest := Split(s[|pat|..], pat);
      assert ([""] + rest)[1..] == rest;
    } else {
      ReplaceIsJoinOfSplit(s[1..], pat, rep);
      var rest := Split(s[1..], pat);
      JoinCons(s[0], rest[0], rest[1..], rep);
      assert [rest[0]] + rest[1..] == rest;
    }
  }

  /** With at least two pieces, a longer separator gives a longer result. */
  lemma {:induction false} JoinLonger(parts: seq<string>, a: string, b: string)
    requires |parts| >= 2 && |a| < |b|
    ensures |Join(parts, a)| < |Join(parts, b)|
    decreases |parts|
  {
    if |parts| > 2 {
      JoinLonger(parts[1..], a, b);
    }
  }

  /** A replacement that changes the length changes the string exactly when
      the pattern occurs in it. */
  lemma ReplaceChangesIffContains(s: string, pat: string, rep: string)
    requires |pat| > 0 && |rep| != |pat|
    ensures ReplaceAll(s, pat, rep) == s <==> !Contains(s, pat)
  {
    ReplaceIsJoinOfSplit(s, pat, rep);
    SplitCountsOccurrence(s, pat);
    SplitJoins(s, pat);
    var parts := Split(s, pat);
    if !Contains(s, pat) {
      SplitWithout(s, pat);
    } else if |pat| < |rep| {
      JoinLonger(parts, pat, rep);
    } else {
      JoinLonger(parts, rep, pat);
    }
  }

  /* ---------------------------------------------------------------------
     s.strip()
     --------------------------------------------------------------------- */

  /** The characters for which Python's `str.isspace()` holds. */
  const SpaceChars: set<char> :=
    {' ', '\t', '\n', '\r', '\U{B}', '\U{C}', '\U{1C}', '\U{1D}', '\U{1E}', '\U{1F}',
     '\U{85}', '\U{A0}', '\U{1680}',
     '\U{2000}', '\U{2001}', '\U{2002}', '\U{2003}', '\U{2004}', '\U{2005}',
     '\U{2006}', '\U{2007}', '\U{2008}', '\U{2009}', '\U{200A}',
     '\U{2028}', '\U{2029}', '\U{202F}', '\U{205F}', '\U{3000}'}

  predicate IsSpace(c: char) {
    c in SpaceChars
  }

  /** Number of whitespace characters at the start of `s`. */
  function LeadingSpace(s: string): (n: nat)
    ensures n <= |s|
    ensures forall k :: 0 <= k < n ==> IsSpace(s[k])
    ensures n < |s| ==> !IsSpace(s[n])
  {
    if |s| == 0 || !IsSpace(s[0]) then 0 else 1 + LeadingSpace(s[1..])
  }

  /** Number of whitespace characters at the end of `s`. */
  function TrailingSpace(s: string): (n: nat)
    ensures n <= |s|
    ensures forall k :: |s| - n <= k < |s| ==> IsSpace(s[k])
    ensures n < |s| ==> !IsSpace(s[|s| - n - 1])
  {
    if |s| == 0 || !IsSpace(s[|s| - 1]) then 0 else 1 + TrailingSpace(s[..|s| - 1])
  }

  /** The bounds `strip()` cuts at: whitespace before `i` and from `j` on,
      and none at either end of what lies between. */
  lemma StripBounds(s: string, i: nat, j: int)
    requires i == LeadingSpace(s) && j == |s| - TrailingSpace(s[i..])
    ensures i <= j <= |s|
    ensures forall k :: 0 <= k < i ==> IsSpace(s[k])
    ensures forall k :: j <= k < |s| ==> IsSpace(s[k])
    ensures i < j ==> !IsSpace(s[i]) && !IsSpace(s[j - 1])
  {
    TrailingOfSuffix(s, i, j);
  }

  /** `TrailingSpace` of a suffix, read in the coordinates of the whole text. */
  lemma TrailingOfSuffix(s: string, i: nat, j: int)
    requires i <= |s| && j == |s| - TrailingSpace(s[i..])
    ensures forall k :: j <= k < |s| ==> IsSpace(s[k])
    ensures i < j ==> !IsSpace(s[j - 1])
  {
    var t := s[i..];
    forall k | j <= k < |s| ensures IsSpace(s[k]) {
      assert s[k] == t[k - i];
    }
    if i < j {
      assert s[j - 1] == t[|t| - TrailingSpace(t) - 1];
    }
  }

  /** Python's `s.strip()`: the slice left after removing whitespace at both ends. */
  function Strip(s: string): (r: string)
    ensures exists i, j :: (0 <= i <= j <= |s| && r == s[i..j]
                            && (forall k :: 0 <= k < i ==> IsSpace(s[k]))
                            && (forall k :: j <= k < |s| ==> IsSpace(s[k])))
    ensures |r| > 0 ==> !IsSpace(r[0]) && !IsSpace(r[|r| - 1])
  {
    var i := LeadingSpace(s);
    var j := |s| - TrailingSpace(s[i..]);
    StripBounds(s, i, j);
    s[i..j]
  }

  lemma StripIdempotent(s: string)
    ensures Strip(Strip(s)) == Strip(s)
  {
    var r := Strip(s);
    var r2 := Strip(r);
    var i, j :| 0 <= i <= j <= |r| && r2 == r[i..j]
      && (forall k :: 0 <= k < i ==> IsSpace(r[k]))
      && (forall k :: j <= k < |r| ==> IsSpace(r[k]));
    if |r| > 0 {
      assert !IsSpace(r[0]) && !IsSpace(r[|r| - 1]);
      assert i == 0 && j == |r|;
    }
  }

  /* ---------------------------------------------------------------------
     s.lower()
     --------------------------------------------------------------------- */

  predicate IsUpper(c: char) { 'A' <= c <= 'Z' }

  function LowerChar(c: char): char {
    if IsUpper(c) then (c as int + 32) as char else c
  }

  /** Python's `s.lower()` on the ASCII letters. */
  function Lower(s: string): (r: string)
    ensures |r| == |s|
    ensures forall k :: 0 <= k < |r| ==> !IsUpper(r[k])
    ensures forall k :: 0 <= k < |s| && !IsUpper(s[k]) ==> r[k] == s[k]
    ensures forall k :: 0 <= k < |s| && IsUpper(s[k]) ==> r[k] as int == s[k] as int + 32
  {
    seq(|s|, k requires 0 <= k < |s| => LowerChar(s[k]))
  }

  /* ---------------------------------------------------------------------
     Decimal digits, str(int) and s.zfill(width)
     --------------------------------------------------------------------- */

  predicate IsDigit(c: char) { '0' <= c <= '9' }

  predicate AllDigits(s: string) {
    forall k :: 0 <= k < |s| ==> IsDigit(s[k])
  }

  function DigitChar(d: nat): (c: char)
    requires d < 10
    ensures IsDigit(c)
  {
    (48 + d) as char
  }

  /** The value of a string of decimal digits, read most significant first. */
  function DigitsValue(s: string): nat
    requires AllDigits(s)
  {
    if |s| == 0 then 0
    else DigitsValue(s[..|s| - 1]) * 10 + (s[|s| - 1] as int - 48)
  }

  /** Python's `str(n)` for a non-negative integer: decimal, no leading zeros. */
  function NatToString(n: nat): (r: string)
    ensures |r| >= 1 && AllDigits(r)
    ensures DigitsValue(r) == n
    ensures r[0] == '0' ==> r == "0"
  {
    if n < 10 then [DigitChar(n)]
    else
      var r := NatToString(n / 10) + [DigitChar(n % 10)];
      assert r[..|r| - 1] == NatToString(n / 10);
      r
  }

  /** Python's `str(i)` for an integer. */
  function IntToString(i: int): (r: string)
    ensures |r| >= 1
    ensures i >= 0 ==> AllDigits(r) && DigitsValue(r) == i
    ensures i < 0 ==> r[0] == '-' && AllDigits(r[1..]) && DigitsValue(r[1..]) == -i
  {
    if i >= 0 then NatToString(i) else "-" + NatToString(-i)
  }

  function Zeros(n: nat): (r: string)
    ensures |r| == n && forall k :: 0 <= k < n ==> r[k] == '0'
  {
    if n == 0 then "" else Zeros(n - 1) + "0"
  }

  /** Python's `s.zfill(width)`: left-pads with `'0'` to `width`, keeping a
      leading sign in front of the padding. */
  function ZFill(s: string, width: nat): string
  {
    if |s| >= width then s
    else if |s| > 0 && (s[0] == '+' || s[0] == '-') then [s[0]] + Zeros(width - |s|) + s[1..]
    else Zeros(width - |s|) + s
  }

  /** Every character of a padded string is a padding zero or a character
      of the original. */
  lemma ZFillPreserves(s: string, width: nat, P: char -> bool)
    requires P('0') && forall k :: 0 <= k < |s| ==> P(s[k])
    ensures forall k :: 0 <= k < |ZFill(s, width)| ==> P(ZFill(s, width)[k])
  {
    var r := ZFill(s, width);
    if |s| < width {
      var z := Zeros(width - |s|);
      if |s| > 0 && (s[0] == '+' || s[0] == '-') {
        assert r == [s[0]] + z + s[1..];
        forall k | 0 <= k < |r| ensures P(r[k]) {
          if k == 0 {
          } else if k <= |z| {
            assert r[k] == z[k - 1];
          } else {
            assert r[k] == s[k - |z|];
          }
        }
      } else {
        assert r == z + s;
        forall k | 0 <= k < |r| ensures P(r[k]) {
          if k < |z| {
            assert r[k] == z[k];
          } else {
            assert r[k] == s[k - |z|];
          }
        }
      }
    }
  }

  /** The first and last characters of a padded string are padding zeros or
      the original's first and last characters. */
  lemma ZFillEnds(s: string, width: nat)
    requires |ZFill(s, width)| > 0
    ensures var r := ZFill(s, width);
      && (r[0] == '0' || (|s| > 0 && r[0] == s[0]))
      && (r[|r| - 1] == '0' || (|s| > 0 && r[|r| - 1] == s[|s| - 1]))
  {
    var r := ZFill(s, width);
    if |s| < width {
      var z := Zeros(width - |s|);
      if |s| > 0 && (s[0] == '+' || s[0] == '-') {
        assert r == [s[0]] + z + s[1..];
        if |s| > 1 {
          assert r[|r| - 1] == s[|s| - 1];
        } else {
          assert r[|r| - 1] == z[|z| - 1];
        }
      } else {
        assert r == z + s;
        assert r[0] == z[0];
        if |s| > 0 {
          assert r[|r| - 1] == s[|s| - 1];
        }
      }
    }
  }

  lemma {:induction false} ZerosThenDigitsValue(n: nat, s: string)
    requires AllDigits(s)
    ensures AllDigits(Zeros(n) + s)
    ensures DigitsValue(Zeros(n) + s) == DigitsValue(s)
    decreases |s|
  {
    var t := Zeros(n) + s;
    if |s| == 0 {
      assert t == Zeros(n);
      ZerosValue(n);
    } else {
      assert t[..|t| - 1] == Zeros(n) + s[..|s| - 1];
      ZerosThenDigitsValue(n, s[..|s| - 1]);
    }
  }

  lemma {:induction false} ZerosValue(n: nat)
    ensures AllDigits(Zeros(n)) && DigitsValue(Zeros(n)) == 0
  {
    if n > 0 {
      ZerosValue(n - 1);
      assert Zeros(n)[..n - 1] == Zeros(n - 1);
    }
  }

  /** Padding never shortens, reaches the width, keeps the unsigned text as a
      suffix, and leaves the value of a digit string unchanged. */
  lemma ZFillProperties(s: string, width: nat)
    ensures |ZFill(s, width)| == if |s| >= width then |s| else width
    ensures |s| >= width ==> ZFill(s, width) == s
    ensures !StartsWith(s, "+") && !StartsWith(s, "-") ==> EndsWith(ZFill(s, width), s)
    ensures AllDigits(s) ==> AllDigits(ZFill(s, width)) && DigitsValue(ZFill(s, width)) == DigitsValue(s)
  {
    if AllDigits(s) && |s| < width {
      ZerosThenDigitsValue(width - |s|, s);
      assert |s| > 0 ==> IsDigit(s[0]);
    }
    if !StartsWith(s, "+") && !StartsWith(s, "-") && |s| > 0 {
      assert s[..1] == [s[0]];
    }
  }
}

=== FILE: variant.dfy ===
/** The decision taken for one (file, group, name, value) attempt: the chain
    of guards that either leaves the ensemble unchanged, discards a freshly
    cloned member, or commits it. Filesystem, git and namelist observations
    are inputs; the effects the attempt performs are recorded as a trace. */
module Variant {
  import opened Text
  import opened Paths
  import opened Lines
  import opened Naming
  import opened Metadata

  /** One value of one namelist entry to sweep. */
  datatype Attempt = Attempt(file: string, group: string, name: string, value: Scalar)

  /** What the generator learns about an attempt from outside: the namelist
      reader, git, the setup tool and the files of the clone. */
  datatype Observation = Observation(
    matchesTemplate: bool,         // the template already holds the value (cosw and sinw for the turning angle)
    dirtyAfterPatch: bool,         // the clone reports changes after patching
    syncScript: seq<string>,       // lines of sync_data.sh in the clone
    workPath: string,              // resolved <member>/work after the setup tool ran
    archiveEntries: seq<string>,   // names in the archive directory inferred from workPath
    config: seq<string>,           // lines of config.yaml in the clone
    metadata: Record)              // metadata.yaml in the clone

  /** Settings shared by every attempt of a run. */
  datatype Context = Context(
    cwd: string,
    template: string,              // the template directory as written in the specification
    startFrom: string,             // the normalised start-from token
    realpath: string -> string)    // symbolic-link resolution of the filesystem
  {
    function TemplatePath(): string {
      PathJoin(cwd, template)
    }
  }

  /** The effects an attempt has on the filesystem and on git, in order. */
  datatype Effect =
    | Clone(path: string, branch: string)
    | Patch(file: string, keys: seq<string>)
    | Rewrite(file: string)
    | Setup(path: string)
    | Symlink(link: string, target: string)
    | CopyInto(source: string, dir: string)
    | RemoveTree(path: string)
    | Commit(message: string)

  /** What a committed member contains. */
  datatype Member = Member(
    path: string,
    branch: string,
    commitMessage: string,
    patchedKeys: seq<string>,
    syncScript: seq<string>,
    syncDir: string,
    config: seq<string>,
    metadata: Record)

  datatype Outcome =
    | AlreadyExists(path: string)
    | IdenticalToTemplate(path: string)
    | DiscardedDuplicate(path: string)
    | DiscardedSyncConflict(path: string, syncDir: string)
    | DiscardedArchiveConflict(path: string, archivePath: string)
    | Committed(member: Member)
    | SyncDirUnbound(path: string)   // `ensemble.py` raises NameError and the run stops
  {
    function Path(): string {
      if Committed? then member.path else path
    }

    /** Outcomes whose path joins the ensemble list. */
    predicate Contributes() {
      AlreadyExists? || Committed?
    }

    predicate Discarded() {
      DiscardedDuplicate? || DiscardedSyncConflict? || DiscardedArchiveConflict?
    }

    /** Outcomes that leave a directory created by this attempt behind. */
    predicate LeavesDirectory() {
      Committed? || SyncDirUnbound?
    }
  }

  /** The result of one attempt: its outcome, its effects, and the value of
      the `syncdir` variable afterwards (it outlives the loop iteration). */
  datatype Step = Step(outcome: Outcome, effects: seq<Effect>, syncDir: Option<string>)

  const SyncScriptName: string := "sync_data.sh"
  const ConfigName: string := "config.yaml"
  const MetadataName: string := "metadata.yaml"
  const ArchiveLinkName: string := "archive"

  function AttemptPath(ctx: Context, a: Attempt): string {
    VariantPath(ctx.cwd, ctx.template, a.name, Str(a.value))
  }

  /** `glob(archive/output*) + glob(archive/restart*)` is non-empty. */
  predicate ArchiveOccupied(entries: seq<string>) {
    exists k :: 0 <= k < |entries| && (StartsWith(entries[k], "output") || StartsWith(entries[k], "restart"))
  }

  /** The template's restart directory with symbolic links resolved, which a
      member not starting from rest is linked to; unused when starting from rest. */
  function RestartTarget(ctx: Context): string
  {
    if ctx.startFrom == Rest then "" else ctx.realpath(RestartSource(ctx.template, ctx.startFrom))
  }

  /** The effects of linking a member to its archive and to the template's
      restart state, and of copying the template's ice namelist. */
  function LinkEffects(ctx: Context, p: string, archive: string): seq<Effect>
  {
    [ Symlink(PathJoin(p, ArchiveLinkName), archive),
      Symlink(PathJoin(p, RestartDir(ctx.startFrom)), RestartTarget(ctx)),
      CopyInto(IceNamelistSource(ctx.template, ctx.startFrom), PathJoin(p, IceDir(ctx.startFrom))) ]
  }

  /** The member committed at `p`: branch and commit message named after its
      directory, the job name set, the metadata amended. */
  function MemberFor(ctx: Context, a: Attempt, obs: Observation, p: string, script: seq<string>, syncDir: string): Member
  {
    var e := Basename(p);
    var valueText := Str(a.value);
    Member(p, e, "set up " + e, PatchedKeys(a.file, a.group, a.name), script, syncDir,
           RewriteConfig(obs.config, a.name, valueText),
           Amend(obs.metadata, ctx.TemplatePath(), ctx.startFrom, RestartTarget(ctx),
                 Perturbation(a.file, a.group, a.name, valueText)))
  }

  /* ---------------------------------------------------------------------
     Shapes of effect traces
     --------------------------------------------------------------------- */

  /** `r` is `effects` followed by at least one more effect. */
  predicate Extends(r: seq<Effect>, effects: seq<Effect>) {
    |r| > |effects| && r[..|effects|] == effects
  }

  /** A trace extending `x + y` extends `x`, and continues with `y`'s first effect. */
  lemma ExtendsThrough(r: seq<Effect>, x: seq<Effect>, y: seq<Effect>)
    requires Extends(r, x + y) && |y| > 0
    ensures Extends(r, x) && r[|x|] == y[0]
  {
    assert r[..|x|] == (x + y)[..|x|];
    assert r[|x|] == (x + y)[|x|];
  }

  /** Appending at least one effect extends a trace. */
  lemma Appended(x: seq<Effect>, y: seq<Effect>)
    requires |y| > 0
    ensures Extends(x + y, x) && (x + y)[|x|] == y[0]
  {
    assert (x + y)[..|x|] == x;
  }

  /** A trace that starts with `x` agrees with `x` position by position. */
  lemma PrefixAgrees(r: seq<Effect>, x: seq<Effect>)
    requires |r| >= |x| && r[..|x|] == x
    ensures forall k :: 0 <= k < |x| ==> r[k] == x[k]
  {
    forall k | 0 <= k < |x| ensures r[k] == x[k] {
      assert r[k] == r[..|x|][k];
    }
  }

  /** Every effect of `y` survives in a trace that extends `x + y`. */
  lemma LinksKept(r: seq<Effect>, x: seq<Effect>, y: seq<Effect>)
    requires Extends(r, x + y)
    ensures forall z :: z in y ==> z in r
  {
    forall z | z in y ensures z in r {
      var k :| 0 <= k < |y| && y[k] == z;
      assert r[|x| + k] == r[..|x + y|][|x| + k];
    }
  }

  predicate NoSetupOrCloneFrom(r: seq<Effect>, from: nat) {
    forall k :: from <= k < |r| ==> !r[k].Setup? && !r[k].Clone?
  }

  predicate HasClone(effects: seq<Effect>) {
    exists k :: 0 <= k < |effects| && effects[k].Clone?
  }

  predicate HasSetup(effects: seq<Effect>) {
    exists k :: 0 <= k < |effects| && effects[k].Setup?
  }

  predicate EndsWithRemoval(effects: seq<Effect>, p: string) {
    |effects| > 0 && effects[|effects| - 1] == RemoveTree(p)
  }

  predicate EndsWithCommit(effects: seq<Effect>) {
    |effects| > 0 && effects[|effects| - 1].Commit?
  }

  /* ---------------------------------------------------------------------
     The decision, stage by stage
     --------------------------------------------------------------------- */

  /** The last stage of a successful attempt: job name, metadata, commit. */
  function Finish(p: string, member: Member, effects: seq<Effect>): Step
  {
    Step(Committed(member),
         effects + [Rewrite(PathJoin(p, ConfigName)), Rewrite(PathJoin(p, MetadataName)), Commit(member.commitMessage)],
         Some(member.syncDir))
  }

  /** After the setup tool ran: refuse an archive that already holds output
      or restarts, otherwise link the member to its archive and to the
      template's restart state and finish. */
  function SetUpStage(ctx: Context, obs: Observation, p: string, member: Member, effects: seq<Effect>): Step
  {
    var archive := ArchivePath(obs.workPath);
    var setUp := effects + [Setup(p)];
    if ArchiveOccupied(obs.archiveEntries) then
      Step(DiscardedArchiveConflict(p, archive), setUp + [RemoveTree(p)], Some(member.syncDir))
    else
      Finish(p, member, setUp + LinkEffects(ctx, p, archive))
  }

  /** Whether the sync destination `d` exists when `ensemble.py` checks it:
      a relative destination is taken from the working directory, and the
      attempt's own clone at `p` already exists by then. */
  predicate DestinationExists(ctx: Context, present: set<string>, p: string, d: string)
  {
    var target := PathJoin(ctx.cwd, d);
    target in present || target == p
  }

  /** Once the sync script is rewritten: stop when no destination was ever
      bound, discard on an existing destination, else set up or finish.
      `commit(d)` is the member that would be committed with destination `d`. */
  function SyncStage(ctx: Context, obs: Observation, present: set<string>, sync: Option<string>,
                     p: string, commit: string -> Member, effects: seq<Effect>): Step
  {
    match sync
    case None =>
      Step(SyncDirUnbound(p), effects, None)
    case Some(d) =>
      if DestinationExists(ctx, present, p, d) then
        Step(DiscardedSyncConflict(p, d), effects + [RemoveTree(p)], sync)
      else if ctx.startFrom != Rest then
        SetUpStage(ctx, obs, p, commit(d), effects)
      else
        Finish(p, commit(d), effects)
  }

  /** The sync destination in force after the script is read: the one its
      last `SYNCDIR=` line gives, or else whatever earlier attempts left. */
  function ChosenSync(obs: Observation, e: string, prevSync: Option<string>): Option<string>
  {
    match ScriptSyncDir(obs.syncScript, e)
    case Some(d) => Some(d)
    case None => prevSync
  }

  /** The effects every attempt that gets past the template comparison starts with. */
  function ClonedEffects(a: Attempt, p: string): seq<Effect>
  {
    [Clone(p, Basename(p)), Patch(PathJoin(p, a.file), PatchedKeys(a.file, a.group, a.name))]
  }

  /** From the clone on: discard an unchanged clone, else rewrite the sync
      script and continue. */
  function CloneStage(ctx: Context, a: Attempt, obs: Observation, present: set<string>, prevSync: Option<string>,
                      p: string): Step
  {
    var e := Basename(p);
    var cloned := ClonedEffects(a, p);
    if !obs.dirtyAfterPatch then
      Step(DiscardedDuplicate(p), cloned + [RemoveTree(p)], prevSync)
    else
      var script := RewriteSyncScript(obs.syncScript, e);
      SyncStage(ctx, obs, present, ChosenSync(obs, e, prevSync), p, d => MemberFor(ctx, a, obs, p, script, d),
                cloned + [Rewrite(PathJoin(p, SyncScriptName))])
  }

  /** One attempt. `present` is the set of paths that exist when the attempt
      starts; `prevSync` is the `syncdir` left by earlier attempts. */
  function Decide(ctx: Context, a: Attempt, obs: Observation, present: set<string>, prevSync: Option<string>): Step
  {
    var p := AttemptPath(ctx, a);
    if p in present then
      Step(AlreadyExists(p), [], prevSync)
    else if obs.matchesTemplate then
      Step(IdenticalToTemplate(p), [], prevSync)
    else
      CloneStage(ctx, a, obs, present, prevSync, p)
  }

  /* ---------------------------------------------------------------------
     Facts about each stage
     --------------------------------------------------------------------- */

  /** The member committed with destination `d` lives at `p` and records `d`. */
  ghost predicate CommitsAt(commit: string -> Member, p: string) {
    forall d :: commit(d).path == p && commit(d).syncDir == d
  }

  lemma FinishFacts(p: string, member: Member, effects: seq<Effect>)
    ensures var r := Finish(p, member, effects);
      && r.outcome == Committed(member)
      && Extends(r.effects, effects) && EndsWithCommit(r.effects)
      && NoSetupOrCloneFrom(r.effects, |effects|)
      && r.syncDir == Some(member.syncDir)
  {
    var tail := [Rewrite(PathJoin(p, ConfigName)), Rewrite(PathJoin(p, MetadataName)), Commit(member.commitMessage)];
    Appended(effects, tail);
  }

  lemma SetUpStageFacts(ctx: Context, obs: Observation, p: string, member: Member, effects: seq<Effect>)
    ensures var r := SetUpStage(ctx, obs, p, member, effects);
      && Extends(r.effects, effects) && r.effects[|effects|] == Setup(p)
      && (r.outcome.DiscardedArchiveConflict? || r.outcome == Committed(member))
      && (r.outcome.DiscardedArchiveConflict? <==> ArchiveOccupied(obs.archiveEntries))
      && (r.outcome.DiscardedArchiveConflict? ==> r.outcome.path == p && EndsWithRemoval(r.effects, p))
      && (r.outcome.Committed? ==> EndsWithCommit(r.effects))
      && (r.outcome.Committed? ==> forall x :: x in LinkEffects(ctx, p, ArchivePath(obs.workPath)) ==> x in r.effects)
      && r.syncDir == Some(member.syncDir)
  {
    var r := SetUpStage(ctx, obs, p, member, effects);
    var archive := ArchivePath(obs.workPath);
    var setUp := effects + [Setup(p)];
    if ArchiveOccupied(obs.archiveEntries) {
      Appended(setUp, [RemoveTree(p)]);
    } else {
      var links := LinkEffects(ctx, p, archive);
      FinishFacts(p, member, setUp + links);
      ExtendsThrough(r.effects, setUp, links);
      LinksKept(r.effects, setUp, links);
    }
    ExtendsThrough(r.effects, effects, [Setup(p)]);
  }

  lemma SyncStageFacts(ctx: Context, obs: Observation, present: set<string>, sync: Option<string>,
                       p: string, commit: string -> Member, effects: seq<Effect>)
    requires CommitsAt(commit, p)
    ensures var r := SyncStage(ctx, obs, present, sync, p, commit, effects);
      && r.outcome.Path() == p
      && (r.outcome.SyncDirUnbound? <==> sync.None?)
      && (r.outcome.SyncDirUnbound? ==> r.effects == effects && r.syncDir == None)
      && (!r.outcome.SyncDirUnbound? ==> Extends(r.effects, effects) && r.syncDir == sync)
      && (r.outcome.DiscardedSyncConflict? <==> sync.Some? && DestinationExists(ctx, present, p, sync.value))
      && (r.outcome.DiscardedSyncConflict? ==> r.outcome.syncDir == sync.value && r.effects == effects + [RemoveTree(p)])
      && (r.outcome.Discarded() <==> EndsWithRemoval(r.effects, p) && Extends(r.effects, effects))
      && (r.outcome.Committed? <==> EndsWithCommit(r.effects) && Extends(r.effects, effects))
      && (r.outcome.DiscardedSyncConflict? || r.outcome.DiscardedArchiveConflict? || r.outcome.Committed? || r.outcome.SyncDirUnbound?)
      && (r.outcome.DiscardedArchiveConflict? ==> ctx.startFrom != Rest && ArchiveOccupied(obs.archiveEntries))
      && (r.outcome.Committed? && ctx.startFrom != Rest ==> !ArchiveOccupied(obs.archiveEntries))
      && (ctx.startFrom == Rest ==> NoSetupOrCloneFrom(r.effects, |effects|))
      && ((r.outcome.Committed? || r.outcome.DiscardedArchiveConflict?) && ctx.startFrom != Rest ==> r.effects[|effects|] == Setup(p))
      && (r.outcome.Committed? ==> sync.Some? && !DestinationExists(ctx, present, p, sync.value) && r.outcome.member == commit(sync.value))
      && (r.outcome.Committed? && ctx.startFrom != Rest ==>
            forall x :: x in LinkEffects(ctx, p, ArchivePath(obs.workPath)) ==> x in r.effects)
  {
    match sync
    case None =>
    case Some(d) =>
      if DestinationExists(ctx, present, p, d) {
        Appended(effects, [RemoveTree(p)]);
      } else if ctx.startFrom != Rest {
        SetUpStageFacts(ctx, obs, p, commit(d), effects);
      } else {
        FinishFacts(p, commit(d), effects);
      }
  }

  lemma SyncStageShape(ctx: Context, obs: Observation, present: set<string>, sync: Option<string>,
                       p: string, commit: string -> Member, effects: seq<Effect>)
    requires CommitsAt(commit, p) && |effects| > 0
    ensures var r := SyncStage(ctx, obs, present, sync, p, commit, effects);
      && |r.effects| >= |effects|
      && (forall k :: 0 <= k < |effects| ==> r.effects[k] == effects[k])
      && !r.outcome.AlreadyExists? && !r.outcome.IdenticalToTemplate? && !r.outcome.DiscardedDuplicate?
      && (r.outcome.SyncDirUnbound? ==> r.effects[|r.effects| - 1] == effects[|effects| - 1])
  {
    SyncStageFacts(ctx, obs, present, sync, p, commit, effects);
    var r := SyncStage(ctx, obs, present, sync, p, commit, effects);
    if !r.outcome.SyncDirUnbound? {
      PrefixAgrees(r.effects, effects);
    }
  }

  /** The members `CloneStage` would commit live at `p` and record their destination. */
  lemma MemberForCommitsAt(ctx: Context, a: Attempt, obs: Observation, p: string, script: seq<string>)
    ensures CommitsAt(d => MemberFor(ctx, a, obs, p, script, d), p)
  {
  }

  /** What holds of every attempt that cloned: the outcome names the clone's
      path `p`, the trace starts with `first` followed by two effects that
      neither clone nor set up, a discarded clone is removed last, a commit
      comes last, and an aborted run stops right after a rewrite. */
  predicate AfterClone(r: Step, p: string, first: Effect) {
    && r.outcome.Path() == p
    && |r.effects| >= 3
    && r.effects[0] == first
    && !r.effects[1].Setup? && !r.effects[1].Clone? && !r.effects[2].Setup? && !r.effects[2].Clone?
    && !r.outcome.AlreadyExists? && !r.outcome.IdenticalToTemplate?
    && (r.outcome.Discarded() <==> EndsWithRemoval(r.effects, p))
    && (r.outcome.Committed? <==> EndsWithCommit(r.effects))
    && (r.outcome.SyncDirUnbound? ==> r.effects[|r.effects| - 1].Rewrite?)
  }

  /** The guards after the dirty check: a sync conflict names a destination
      that exists, an archive conflict and the archive check arise only when
      not starting from rest. */
  predicate LaterGuards(ctx: Context, obs: Observation, present: set<string>, r: Step) {
    && (r.outcome.DiscardedSyncConflict? ==> DestinationExists(ctx, present, r.outcome.path, r.outcome.syncDir))
    && (r.outcome.DiscardedArchiveConflict? ==> ctx.startFrom != Rest && ArchiveOccupied(obs.archiveEntries))
    && (r.outcome.Committed? && ctx.startFrom != Rest ==> !ArchiveOccupied(obs.archiveEntries))
  }

  /** A clone that stays dirty after patching goes on to the sync stage. */
  lemma DirtyShape(ctx: Context, obs: Observation, present: set<string>, sync: Option<string>,
                   p: string, commit: string -> Member, cloned: seq<Effect>, script: string)
    requires CommitsAt(commit, p)
    requires |cloned| == 2 && cloned[0].Clone? && cloned[1].Patch?
    ensures var r := SyncStage(ctx, obs, present, sync, p, commit, cloned + [Rewrite(script)]);
      && AfterClone(r, p, cloned[0]) && !r.outcome.DiscardedDuplicate?
      && LaterGuards(ctx, obs, present, r)
      && (r.outcome.SyncDirUnbound? <==> sync.None?)
  {
    var synced := cloned + [Rewrite(script)];
    SyncStageFacts(ctx, obs, present, sync, p, commit, synced);
    SyncStageShape(ctx, obs, present, sync, p, commit, synced);
  }

  /** A clone that patching left unchanged is removed. */
  lemma DuplicateShape(p: string, cloned: seq<Effect>, prevSync: Option<string>)
    requires |cloned| == 2 && cloned[0].Clone? && cloned[1].Patch?
    ensures AfterClone(Step(DiscardedDuplicate(p), cloned + [RemoveTree(p)], prevSync), p, cloned[0])
  {
  }

  lemma CloneStageShape(ctx: Context, a: Attempt, obs: Observation, present: set<string>, prevSync: Option<string>, p: string)
    ensures var r := CloneStage(ctx, a, obs, present, prevSync, p);
      && AfterClone(r, p, Clone(p, Basename(p)))
      && (r.outcome.DiscardedDuplicate? <==> !obs.dirtyAfterPatch)
      && LaterGuards(ctx, obs, present, r)
      && (r.outcome.SyncDirUnbound? <==> obs.dirtyAfterPatch && ChosenSync(obs, Basename(p), prevSync).None?)
  {
    var e := Basename(p);
    var cloned := ClonedEffects(a, p);
    if obs.dirtyAfterPatch {
      var script := RewriteSyncScript(obs.syncScript, e);
      MemberForCommitsAt(ctx, a, obs, p, script);
      DirtyShape(ctx, obs, present, ChosenSync(obs, e, prevSync), p, d => MemberFor(ctx, a, obs, p, script, d),
                 cloned, PathJoin(p, SyncScriptName));
    } else {
      DuplicateShape(p, cloned, prevSync);
    }
  }

  lemma SyncStageSetup(ctx: Context, obs: Observation, present: set<string>, sync: Option<string>,
                       p: string, commit: string -> Member, effects: seq<Effect>)
    requires CommitsAt(commit, p)
    requires forall k :: 0 <= k < |effects| ==> !effects[k].Setup?
    ensures var r := SyncStage(ctx, obs, present, sync, p, commit, effects);
      HasSetup(r.effects) <==> ctx.startFrom != Rest && (r.outcome.Committed? || r.outcome.DiscardedArchiveConflict?)
  {
    SyncStageFacts(ctx, obs, present, sync, p, commit, effects);
    var r := SyncStage(ctx, obs, present, sync, p, commit, effects);
    if (r.outcome.Committed? || r.outcome.DiscardedArchiveConflict?) && ctx.startFrom != Rest {
      assert r.effects[|effects|].Setup?;
    } else {
      PrefixAgrees(r.effects, effects);
      assert forall k :: 0 <= k < |r.effects| ==> !r.effects[k].Setup?;
    }
  }

  lemma SyncedHasNoSetup(a: Attempt, p: string, script: string)
    ensures var synced := ClonedEffects(a, p) + [Rewrite(script)];
      forall k :: 0 <= k < |synced| ==> !synced[k].Setup?
  {
  }

  lemma CloneStageSetup(ctx: Context, a: Attempt, obs: Observation, present: set<string>, prevSync: Option<string>, p: string)
    ensures var r := CloneStage(ctx, a, obs, present, prevSync, p);
      HasSetup(r.effects) <==> ctx.startFrom != Rest && (r.outcome.Committed? || r.outcome.DiscardedArchiveConflict?)
  {
    var e := Basename(p);
    var synced := ClonedEffects(a, p) + [Rewrite(PathJoin(p, SyncScriptName))];
    if obs.dirtyAfterPatch {
      var script := RewriteSyncScript(obs.syncScript, e);
      MemberForCommitsAt(ctx, a, obs, p, script);
      SyncedHasNoSetup(a, p, PathJoin(p, SyncScriptName));
      SyncStageSetup(ctx, obs, present, ChosenSync(obs, e, prevSync), p, d => MemberFor(ctx, a, obs, p, script, d), synced);
    }
  }

  lemma CloneStageCommitted(ctx: Context, a: Attempt, obs: Observation, present: set<string>, prevSync: Option<string>, p: string)
    ensures var r := CloneStage(ctx, a, obs, present, prevSync, p);
      var e := Basename(p);
      var sync := ChosenSync(obs, e, prevSync);
      r.outcome.Committed? ==>
        && sync.Some? && !DestinationExists(ctx, present, p, sync.value)
        && r.outcome.member == MemberFor(ctx, a, obs, p, RewriteSyncScript(obs.syncScript, e), sync.value)
        && (ctx.startFrom != Rest ==> forall x :: x in LinkEffects(ctx, p, ArchivePath(obs.workPath)) ==> x in r.effects)
  {
    var e := Basename(p);
    var synced := ClonedEffects(a, p) + [Rewrite(PathJoin(p, SyncScriptName))];
    if obs.dirtyAfterPatch {
      var script := RewriteSyncScript(obs.syncScript, e);
      MemberForCommitsAt(ctx, a, obs, p, script);
      SyncStageFacts(ctx, obs, present, ChosenSync(obs, e, prevSync), p, d => MemberFor(ctx, a, obs, p, script, d), synced);
    }
  }

  /* ---------------------------------------------------------------------
     Properties of the decision
     --------------------------------------------------------------------- */

  /** The guards run in the order `ensemble.py` checks them: existence first
      and the template comparison next, both before anything is cloned; then
      the dirty check; then the sync destination; then, only when not
      starting from rest, the archive. Each guard discards exactly the
      attempts that passed the guards before it and fail it, and an attempt
      that passes every guard is committed. */
  lemma DecisionOrder(ctx: Context, a: Attempt, obs: Observation, present: set<string>, prevSync: Option<string>)
    ensures var s := Decide(ctx, a, obs, present, prevSync);
      var p := AttemptPath(ctx, a);
      var sync := ChosenSync(obs, Basename(p), prevSync);
      var dirty := p !in present && !obs.matchesTemplate && obs.dirtyAfterPatch;
      var free := dirty && sync.Some? && !DestinationExists(ctx, present, p, sync.value);
      && s.outcome.Path() == p
      && (s.outcome.AlreadyExists? <==> p in present)
      && (s.outcome.IdenticalToTemplate? <==> p !in present && obs.matchesTemplate)
      && (HasClone(s.effects) <==> p !in present && !obs.matchesTemplate)
      && (s.outcome.DiscardedDuplicate? <==> p !in present && !obs.matchesTemplate && !obs.dirtyAfterPatch)
      && (s.outcome.SyncDirUnbound? <==> dirty && sync.None?)
      && (s.outcome.DiscardedSyncConflict? <==> dirty && sync.Some? && DestinationExists(ctx, present, p, sync.value))
      && (s.outcome.DiscardedSyncConflict? ==> s.outcome.syncDir == sync.value)
      && (s.outcome.DiscardedArchiveConflict? <==> free && ctx.startFrom != Rest && ArchiveOccupied(obs.archiveEntries))
      && (s.outcome.Committed? <==> free && (ctx.startFrom == Rest || !ArchiveOccupied(obs.archiveEntries)))
  {
    var p := AttemptPath(ctx, a);
    var s := Decide(ctx, a, obs, present, prevSync);
    if p !in present && !obs.matchesTemplate {
      CloneStageShape(ctx, a, obs, present, prevSync, p);
      assert HasClone(s.effects) by { assert s.effects[0].Clone?; }
    }
    DecideGuards(ctx, a, obs, present, prevSync);
  }

  /** The three guards after the dirty check, each stated both ways. */
  lemma DecideGuards(ctx: Context, a: Attempt, obs: Observation, present: set<string>, prevSync: Option<string>)
    ensures var s := Decide(ctx, a, obs, present, prevSync);
      var p := AttemptPath(ctx, a);
      var sync := ChosenSync(obs, Basename(p), prevSync);
      var dirty := p !in present && !obs.matchesTemplate && obs.dirtyAfterPatch;
      var free := dirty && sync.Some? && !DestinationExists(ctx, present, p, sync.value);
      && (s.outcome.DiscardedSyncConflict? <==> dirty && sync.Some? && DestinationExists(ctx, present, p, sync.value))
      && (s.outcome.DiscardedSyncConflict? ==> s.outcome.syncDir == sync.value)
      && (s.outcome.DiscardedArchiveConflict? <==> free && ctx.startFrom != Rest && ArchiveOccupied(obs.archiveEntries))
      && (s.outcome.Committed? <==> free && (ctx.startFrom == Rest || !ArchiveOccupied(obs.archiveEntries)))
  {
    var p := AttemptPath(ctx, a);
    if p !in present && !obs.matchesTemplate && obs.dirtyAfterPatch {
      var e := Basename(p);
      var script := RewriteSyncScript(obs.syncScript, e);
      var synced := ClonedEffects(a, p) + [Rewrite(PathJoin(p, SyncScriptName))];
      assert Decide(ctx, a, obs, present, prevSync) == CloneStage(ctx, a, obs, present, prevSync, p);
      MemberForCommitsAt(ctx, a, obs, p, script);
      SyncStageFacts(ctx, obs, present, ChosenSync(obs, e, prevSync), p, d => MemberFor(ctx, a, obs, p, script, d), synced);
    }
  }

  /** A sync destination that names the attempt's own directory, whether
      absolute or relative to the working directory, discards the clone just
      made. */
  lemma OwnDirectoryConflicts(ctx: Context, a: Attempt, obs: Observation, present: set<string>, prevSync: Option<string>)
    requires AttemptPath(ctx, a) !in present && !obs.matchesTemplate && obs.dirtyAfterPatch
    requires var sync := ChosenSync(obs, Basename(AttemptPath(ctx, a)), prevSync);
      sync.Some? && PathJoin(ctx.cwd, sync.value) == AttemptPath(ctx, a)
    ensures Decide(ctx, a, obs, present, prevSync).outcome
         == DiscardedSyncConflict(AttemptPath(ctx, a), ChosenSync(obs, Basename(AttemptPath(ctx, a)), prevSync).value)
  {
    DecisionOrder(ctx, a, obs, present, prevSync);
  }

  /** A directory is removed exactly when the attempt is discarded, a commit
      happens exactly when it is committed, and either is the last effect.
      The setup tool runs only when not starting from rest, and a directory
      made by the attempt is left behind only by a commit or by the aborted
      run. */
  lemma EffectsMatchOutcome(ctx: Context, a: Attempt, obs: Observation, present: set<string>, prevSync: Option<string>)
    ensures var s := Decide(ctx, a, obs, present, prevSync);
      var p := AttemptPath(ctx, a);
      && (s.outcome.Discarded() <==> EndsWithRemoval(s.effects, p))
      && (s.outcome.Committed? <==> EndsWithCommit(s.effects))
      && (HasSetup(s.effects) <==> ctx.startFrom != Rest && (s.outcome.Committed? || s.outcome.DiscardedArchiveConflict?))
      && (s.outcome.LeavesDirectory() <==> HasClone(s.effects) && !EndsWithRemoval(s.effects, p))
  {
    var p := AttemptPath(ctx, a);
    if p !in present && !obs.matchesTemplate {
      CloneStageShape(ctx, a, obs, present, prevSync, p);
      CloneStageSetup(ctx, a, obs, present, prevSync, p);
    }
  }

  /** A committed member is the clone at the attempt's path, on a branch and
      with a commit message named after its directory; its sync destination,
      taken from the working directory, did not exist and is not the clone
      itself, and is the one its own script names or, failing that,
      the one left by an earlier attempt; its sync script, job name and
      metadata are rewritten; and unless it starts from rest it is linked to
      its archive and to the template's resolved restart directory. */
  lemma CommittedMember(ctx: Context, a: Attempt, obs: Observation, present: set<string>, prevSync: Option<string>)
    ensures var s := Decide(ctx, a, obs, present, prevSync);
      var p := AttemptPath(ctx, a);
      var e := Basename(p);
      s.outcome.Committed? ==>
        var m := s.outcome.member;
        && m.path == p && m.branch == e && m.commitMessage == "set up " + e
        && m.patchedKeys == PatchedKeys(a.file, a.group, a.name)
        && PathJoin(ctx.cwd, m.syncDir) !in present && PathJoin(ctx.cwd, m.syncDir) != p
        && (ScriptSyncDir(obs.syncScript, e).Some? ==> m.syncDir == ScriptSyncDir(obs.syncScript, e).value)
        && (ScriptSyncDir(obs.syncScript, e).None? ==> prevSync == Some(m.syncDir))
        && m.syncScript == RewriteSyncScript(obs.syncScript, e)
        && m.config == RewriteConfig(obs.config, a.name, Str(a.value))
        && m.metadata == Amend(obs.metadata, ctx.TemplatePath(), ctx.startFrom, RestartTarget(ctx),
                               Perturbation(a.file, a.group, a.name, Str(a.value)))
        && (ctx.startFrom != Rest ==>
              && Symlink(PathJoin(p, ArchiveLinkName), ArchivePath(obs.workPath)) in s.effects
              && Symlink(PathJoin(p, RestartDir(ctx.startFrom)), ctx.realpath(RestartSource(ctx.template, ctx.startFrom))) in s.effects)
  {
    var p := AttemptPath(ctx, a);
    var s := Decide(ctx, a, obs, present, prevSync);
    if s.outcome.Committed? {
      var e := Basename(p);
      var sync := ChosenSync(obs, e, prevSync);
      assert p !in present && !obs.matchesTemplate;
      assert s == CloneStage(ctx, a, obs, present, prevSync, p);
      CloneStageCommitted(ctx, a, obs, present, prevSync, p);
      MemberForFields(ctx, a, obs, p, RewriteSyncScript(obs.syncScript, e), sync.value);
      SyncChoice(obs, e, prevSync, sync.value);
      if ctx.startFrom != Rest {
        LinksIn(ctx, p, ArchivePath(obs.workPath), s.effects);
      }
    }
  }

  lemma MemberForFields(ctx: Context, a: Attempt, obs: Observation, p: string, script: seq<string>, d: string)
    ensures var m := MemberFor(ctx, a, obs, p, script, d);
      && m.path == p && m.branch == Basename(p) && m.commitMessage == "set up " + Basename(p)
      && m.patchedKeys == PatchedKeys(a.file, a.group, a.name)
      && m.syncScript == script && m.syncDir == d
      && m.config == RewriteConfig(obs.config, a.name, Str(a.value))
      && m.metadata == Amend(obs.metadata, ctx.TemplatePath(), ctx.startFrom, RestartTarget(ctx),
                             Perturbation(a.file, a.group, a.name, Str(a.value)))
  {
  }

  /** Where a chosen destination comes from: the script when it names one,
      the earlier attempts otherwise. */
  lemma SyncChoice(obs: Observation, e: string, prevSync: Option<string>, d: string)
    requires ChosenSync(obs, e, prevSync) == Some(d)
    ensures ScriptSyncDir(obs.syncScript, e).Some? ==> d == ScriptSyncDir(obs.syncScript, e).value
    ensures ScriptSyncDir(obs.syncScript, e).None? ==> prevSync == Some(d)
  {
  }

  lemma LinksIn(ctx: Context, p: string, archive: string, effects: seq<Effect>)
    requires forall x :: x in LinkEffects(ctx, p, archive) ==> x in effects
    ensures Symlink(PathJoin(p, ArchiveLinkName), archive) in effects
    ensures Symlink(PathJoin(p, RestartDir(ctx.startFrom)), RestartTarget(ctx)) in effects
  {
    var links := LinkEffects(ctx, p, archive);
    assert links[0] in links && links[1] in links;
  }

  lemma SyncNaming(script: seq<string>, e: string, m: Member)
    requires e != "" && '/' !in e && m.branch == e
    requires m.syncScript == RewriteSyncScript(script, e)
    requires ScriptSyncDir(script, e).Some? ==> m.syncDir == ScriptSyncDir(script, e).value
    ensures ScriptSyncDir(script, e).Some? ==>
      && Basename(m.syncDir) == e
      && m.syncScript[LastMatch(script, SyncPrefix).value] == SyncPrefix + m.syncDir + "\n"
  {
    SyncDirIsLastWritten(script, e);
  }

  /** With slash-free names, a committed member's directory and branch are
      `<template basename>_<name>_<value>`, and when its script names a sync
      destination, that destination ends in the same name and is what the
      last `SYNCDIR=` line of the committed script says. */
  lemma CommittedNaming(ctx: Context, a: Attempt, obs: Observation, present: set<string>, prevSync: Option<string>)
    requires '/' !in a.name && '/' !in Str(a.value)
    ensures var s := Decide(ctx, a, obs, present, prevSync);
      s.outcome.Committed? ==>
        var m := s.outcome.member;
        && m.branch == Basename(ctx.template) + "_" + a.name + "_" + Str(a.value)
        && (ScriptSyncDir(obs.syncScript, m.branch).Some? ==>
              && Basename(m.syncDir) == m.branch
              && LastMatch(obs.syncScript, SyncPrefix).Some?
              && LastMatch(obs.syncScript, SyncPrefix).value < |m.syncScript|
              && m.syncScript[LastMatch(obs.syncScript, SyncPrefix).value] == SyncPrefix + m.syncDir + "\n")
  {
    var s := Decide(ctx, a, obs, present, prevSync);
    var p := AttemptPath(ctx, a);
    var e := Basename(p);
    if s.outcome.Committed? {
      var m := s.outcome.member;
      assert m.branch == e && m.syncScript == RewriteSyncScript(obs.syncScript, e)
        && (ScriptSyncDir(obs.syncScript, e).Some? ==> m.syncDir == ScriptSyncDir(obs.syncScript, e).value) by {
        CommittedMember(ctx, a, obs, present, prevSync);
      }
      assert e == Basename(ctx.template) + "_" + a.name + "_" + Str(a.value) && e != "" && '/' !in e by {
        ExpNameShape(ctx.cwd, ctx.template, a.name, Str(a.value));
      }
      SyncNaming(obs.syncScript, e, m);
    }
  }

  lemma DecidePath(ctx: Context, a: Attempt, obs: Observation, present: set<string>, prevSync: Option<string>)
    ensures Decide(ctx, a, obs, present, prevSync).outcome.Path() == AttemptPath(ctx, a)
  {
    DecisionOrder(ctx, a, obs, present, prevSync);
  }
}
